=== FILE: README.md ===
# skydns request path, modelled in Dafny

This project models how the skydns server (`server.go`) handles one DNS
request. It is an authoritative server for one zone and answers from a
hierarchical key-value store (etcd).

- **Routing.** A query whose lower-cased name ends in the zone is answered
  from the zone. Any other query is forwarded to the upstream nameservers.
- **Name to store path.** A question name becomes a store path: its labels
  in reverse order, joined with `/`.
- **Address records from the store.** A and AAAA records are built from the
  leaves of the node found at that path. Directories are walked recursively.
- **Cluster shortcut.** A and AAAA queries for the apex and for `master.`
  are answered from the store's cluster member list instead.
- **Round-robin.** An optional reordering of the answer, driven by `dns.Id()`
  draws.
- **SOA.** The zone's SOA record. Its serial is the current hour.
- **Answer policy.** The apex DNSKEY/SOA answers, NXDOMAIN, NODATA, and
  DNSSEC signing of the reply.
- **Forwarding.** The retry loop across the upstream nameservers.

The model is pure and functional, one module per component:

- `Basics`: Option, fixed-width integers.
- `Names`: lower-casing, suffixes, label splitting, `questionToPath`.
- `Message`: questions, records, messages.
- `Store`: the store and the library parsers, seen at their boundary.
- `AddressWalk`: the leaf rule and `loopAddressNodes`.
- `RoundRobin`: the reordering.
- `Cluster`: the cluster shortcut.
- `Forward`: `ServeDNSForward`.
- `Soa`: the SOA record.
- `Server`: `NewServer`, `AddressRecords`, `SRVRecords`, `ServeDNS`.

Everything outside the process is an input:

- the store is a function from path to node, plus the member list;
- the URL, host:port and IP parsers are functions;
- the `dns.Id()` draws are a stream `nat -> uint16`;
- the outcomes of the upstream exchanges are a stream indexed by attempt;
- the clock is one Unix time in seconds.

A Go panic is an outcome of `ServeDNS`. When the panic happens after the
deferred writer is installed, the outcome also carries the reply that is
still written.

Behaviours of the code worth knowing:

- **Forwarding makes up to `n + 1` attempts.** The loop retries
  while `try < n`, so with `n` servers all failing there are `n + 1`
  exchanges. The starting server is tried first and again last
  (`Forward.ForwardAllFail`).
- **Round-robin redraws its bound on every loop test.** The bound
  `l * (dns.Id() % 4 + 1)` is re-evaluated, with a fresh draw, at every
  loop test. The number of swaps is therefore between `l` and `4l`. When
  every draw agrees with `d` modulo 4 it is exactly `l * (d % 4 + 1)`
  (`RoundRobin.ShuffleConstantBound`).
- **Malformed stored values are not skipped.** A matching leaf whose value
  does not parse as an IP address still yields a record. Its address is
  nil, modelled as `None`. An IPv4 literal under an `/AAAA` key gives the
  16-byte IPv4-mapped form.
- **The store path has no leading slash.** `svc.env.zone.` maps to
  `zone/env/svc`.
- **The zone test is a plain string suffix.**
  `xskydns.local.` counts as inside `skydns.local.`
  (`Server.SuffixNotLabelBoundary`).
- **The cluster shortcut can answer an A query with AAAA records.** This
  happens for IPv6 members (`Cluster.ClusterMixedFamilies`). It panics on
  a member host that is not an IP address.
- **`SRVRecords` never builds records.** Its lookup code is commented out.
  The function only reports whether the name's node exists, so SRV and ANY
  queries never receive service records (`Server.SrvNeverAnswers`).

## Model

| member | source | states |
|---|---|---|
| Basics.U32 | server.go:270 | `uint32(n.TTL)` keeps a TTL in `[0, 2^32)` unchanged and is congruent to it modulo 2^32 otherwise |
| Names.Lower | server.go:126 | a lower-cased name has the same length, contains no upper-case letter, and a name without one is left unchanged |
| Names.LowerIdempotent | server.go:126 | lower-casing an already lower-cased name changes nothing |
| Names.LowerFqdn | server.go:58-59 | lower-casing keeps the trailing dot, commutes with `dns.Fqdn`, and keeps the number of labels |
| Names.Fqdn | server.go:58 | the result always ends in a dot; a name already ending in one is kept, otherwise one dot is appended |
| Names.SplitDomainName | server.go:457 | a name has no labels exactly when it is empty or the root |
| Names.QuestionToPathRoundTrip | server.go:456-463 | when no label contains `/`, the path has one segment per label and reading the segments backwards gives the labels back |
| Names.QuestionToPath | server.go:456-463 | the root name and the empty name have no labels and map to the empty path |
| Names.QuestionToPathExample | server.go:453-463 | `svc.env.zone.` maps to `zone/env/svc`, with no leading slash |
| Names.QuestionToPathSlashInLabel | server.go:461 | a `/` inside a label is not escaped: the two-label name `a/b.c.` maps to the three-segment path `c/a/b` |
| Message.SetReply | server.go:135-136 | the reply copies the request id and first question, is marked a response with NOERROR, and keeps the AA and RA bits and the sections it had |
| Message.SetRcode | server.go:166 | the rcode is set, the reply still answers the request, and flags, sections and signing are left alone |
| AddressWalk.LeafRecords | server.go:264-279 | a single leaf yields at most one record, and yields one exactly when its key ends in `/A` for an A query or `/AAAA` for an AAAA query; that record has the question name, the queried type, class IN and the leaf's TTL cut to 32 bits, and its address is the `To4()` form of the leaf's value for A and the `To16()` form for AAAA |
| AddressWalk.Walk | server.go:308-331 | every record found has the question name, the queried type and class IN; a type other than A and AAAA finds nothing |
| AddressWalk.WalkIsMatchingLeaves | server.go:308-331 | the recursive walk equals a reference definition: flatten the tree depth first, keep the matching leaves, build one record per leaf |
| AddressWalk.WalkCount | server.go:314-327 | the walk yields exactly one record per matching leaf, each with that leaf's TTL cut to 32 bits and the `To4()` (A) or `To16()` (AAAA) form of that leaf's value as its address |
| AddressWalk.NodeRecordsAreMatchingLeaves | server.go:259-283 | the node a lookup finds, a lone leaf or a directory, yields one record per matching leaf at or below it, depth first |
| AddressWalk.NodeRecordsIsWalk | server.go:264-282 | the top-level single-leaf test gives the same records as walking a one-element child list |
| AddressWalk.WalkAppend | server.go:309-312 | walking concatenated child lists concatenates the results, so a directory contributes its records in place |
| RoundRobin.SwapAtEffect | server.go:299 | a swap exchanges the two entries, leaves every other entry in place, and keeps the multiset |
| RoundRobin.ApplySwapsPermutes | server.go:284-302 | applying any list of in-range swaps keeps the length and the multiset of the records |
| RoundRobin.Bound | server.go:293 | the loop bound for `l` records lies between `l` and `4l` |
| RoundRobin.BoundIsProduct | server.go:293 | the loop bound is `l * (d % 4 + 1)` for the draw `d` |
| RoundRobin.PickSwap | server.go:294-298 | the two positions drawn for a swap are distinct and inside the record list |
| RoundRobin.LoopSwaps | server.go:293-300 | the loop picks only swaps of two distinct positions inside the record list |
| RoundRobin.LoopSwapsCount | server.go:293 | the loop stops at the first loop test whose fresh bound has been reached, after at least `l` and at most `4l` iterations |
| RoundRobin.LoopSwapsPicks | server.go:294-299 | iteration `k` swaps the positions drawn at `pos + 3k + 1` and `pos + 3k + 2` |
| RoundRobin.LoopSwapsTests | server.go:293 | iteration `k` happened because the bound drawn at `pos + 3k` exceeded the iteration count |
| RoundRobin.Shuffle | server.go:284-302 | the reordering keeps the number of records and performs only proper swaps |
| RoundRobin.ShufflePermutes | server.go:284-302 | the reordered answer is the input with the recorded swaps applied, and has the same multiset of records |
| RoundRobin.ShuffleShort | server.go:285-293 | zero or one record is left alone, with no swap |
| RoundRobin.ShufflePair | server.go:287-290 | two records are swapped exactly when the one draw is even |
| RoundRobin.ShuffleLong | server.go:291-300 | three or more records undergo between `l` and `4l` swaps, each made of fresh draws, with the bound re-drawn at each test |
| RoundRobin.ShuffleConstantBound | server.go:292-293 | when every draw agrees with `d` modulo 4, exactly `l * (d % 4 + 1)` swaps happen |
| Cluster.Hosts | server.go:237-245 | a host is kept exactly when some member's URL and host:port parse to it; members that fail either parse are skipped, so there are at most as many hosts as members |
| Cluster.AddressRR | server.go:246-255 | a member host yields no record (the source panics) exactly when it has no 16-byte form and is not an IPv4 host asked for A, which for Go's `net.IP` means it is not an IP address; a record has the question name as asked, class IN and the zone TTL, and is of type A exactly for an A query on a host with an IPv4 form |
| Cluster.ClusterRecords | server.go:236-257 | every synthesized record has the question name as asked and the zone's default TTL, at most one per member |
| Cluster.ClusterRecordsSpec | server.go:237-256 | the shortcut fails (panics) exactly when some parseable member host is not an IP address; otherwise it gives one record per parseable member, in order |
| Cluster.ClusterRecordShape | server.go:247-251 | a record is of type A exactly for an A query on an IPv4 host, with its IPv4 address; otherwise it is AAAA with the 16-byte form |
| Cluster.ClusterMixedFamilies | server.go:248-251 | one IPv4 and one IPv6 member answer an A query with an A record and an AAAA record |
| Cluster.ClusterPanicsOnNonIP | server.go:252-254 | one member host that is not an IP address makes the whole shortcut panic |
| Forward.ServFail | server.go:228-230 | the fallback reply is a SERVFAIL response to the request with empty sections, not authoritative and without RA |
| Forward.Redo | server.go:211-231 | the loop makes at least one and at most `n + 1 - try` attempts, each at a valid server index |
| Forward.ServeDNSForward | server.go:190-232 | no attempt without servers; otherwise between 1 and `n + 1` attempts |
| Forward.RedoTarget | server.go:209-224 | attempt `k` of the loop started at server `s` goes to server `(s + k) mod n` |
| Forward.RedoOutcome | server.go:211-231 | every attempt before the last failed; the last one either reached its server, whose reply is returned verbatim, or was attempt `n`, giving SERVFAIL |
| Forward.ForwardWithoutServers | server.go:191-199 | without nameservers, nothing is exchanged and the reply is SERVFAIL, not authoritative, with RA set |
| Forward.ForwardTargets | server.go:208-224 | attempt `k` targets server `(id mod n + k) mod n`, with at most `n + 1` attempts |
| Forward.ForwardFirstSuccess | server.go:212-216 | the first exchange that succeeds, at attempt `k <= n`, decides the reply, and no later attempt is made |
| Forward.ForwardAllFail | server.go:218-231 | when all exchanges fail there are exactly `n + 1` attempts, the first and last at the starting server, and the reply is SERVFAIL |
| Forward.ForwardReachedIff | server.go:211-231 | the reply comes from an upstream exactly when one of the first `n + 1` exchanges reached its server |
| Soa.HourFloor | server.go:445 | the truncated time is a multiple of an hour, at most the time, and less than an hour before it |
| Soa.Serial | server.go:445 | the serial is the truncated time modulo 2^32 |
| Soa.SOA | server.go:441-451 | the record is owned by the zone with type SOA, class IN and the zone TTL; its nameserver is `master.` and its mailbox `hostmaster.` plus the zone; its refresh, retry and expire are 28800, 7200 and 604800 at every time, and its minimum is the zone's minimum TTL |
| Soa.SerialIsHourStart | server.go:445 | until 2^32 seconds the serial is the start of the current hour |
| Soa.SerialMonotone | server.go:445 | until 2^32 seconds the serial never decreases, and two times share a serial exactly when they fall in the same hour |
| Soa.SerialAdvancesHourly | server.go:445 | until 2^32 seconds, two times an hour or more apart have strictly increasing serials |
| Soa.SerialWraps | server.go:445 | past 2^32 seconds the 32-bit serial wraps: the first hour after the wrap has a smaller serial than the last hour before it |
| Soa.SOASerial | server.go:445 | until 2^32 seconds the record's serial is the start of the current hour |
| Server.NewServer | server.go:56-72 | the stored zone is the given one, lower-cased character by character, with one dot appended exactly when it was not fully qualified; the label count is that of the stored zone; the TTL defaults to 3600 and the minimum TTL to 60; round-robin and DNSSEC start off |
| Server.NewServerIdempotent | server.go:58-59 | building a server from an already-normalised zone gives the same configuration, label count included |
| Server.AddressRecords | server.go:234-304 | only the cluster shortcut can panic; the lookup reports "not found" exactly when the name is not a cluster name and the store has no node at its path |
| Server.AddressRecordsFound | server.go:234-304 | for the apex and `master.` names the lookup returns exactly the cluster shortcut's records, never reordered, and panics exactly when the shortcut does; for any other name with a node it returns a permutation of the node's records, in store order without round-robin |
| Server.SRVRecords | server.go:335-339 | the service lookup returns no records and no extras |
| Server.Answer | server.go:151-186 | filling the reply panics only for an A or AAAA query on the apex or `master.` name, and then leaves the reply as it was; it never changes the signing marker, EDNS0 or the AA and RA bits, and the rcode stays or becomes NXDOMAIN |
| Server.Fill | server.go:163-186 | past the apex answers, the body panics exactly when the address lookup does; it leaves the flags and signing alone, and the rcode stays or becomes NXDOMAIN |
| Server.Finish | server.go:140-149 | the deferred writer signs, for the request's UDP size, exactly when a key is configured and the request has EDNS0 with the DNSSEC-OK bit; it changes nothing else that the model observes |
| Server.AnswerInvariants | server.go:135-186 | filling the reply skeleton keeps its id, question and flags and leaves it unsigned; the rcode ends as NOERROR or NXDOMAIN, and a finished reply has answers and no authority, or no answers and exactly the SOA as authority |
| Server.ServeDNS | server.go:121-187 | a request without a question panics before anything is written; a request is forwarded exactly when its lower-cased name does not end in the zone |
| Server.ForwardIgnoresZone | server.go:130-134 | a forwarded request's outcome is the forwarder's, whatever the store, the parsers, the draws and the clock |
| Server.ReplyHeader | server.go:135-138 | every reply written for a name in the zone answers the request with its question, is authoritative with RA, has rcode NOERROR or NXDOMAIN, and an NXDOMAIN reply has no answer |
| Server.AnswerOrSOA | server.go:163-186 | ignoring what the signer adds, a reply written without a panic has answers and an empty authority section, or no answers and exactly the zone's SOA as authority |
| Server.SignedIff | server.go:140-149 | the written reply is signed, for the request's UDP size, exactly when a key is configured and the request sets DNSSEC-OK, including after a panic |
| Server.ApexSOA | server.go:151-160 | an SOA query for the apex is answered with the zone's SOA alone, NOERROR, with no authority records |
| Server.ApexDNSKEY | server.go:151-186 | a DNSKEY query for the apex is answered with the key when one is configured; without a key it has no answer, the SOA as authority, and is NXDOMAIN exactly when the store has no node for the apex |
| Server.AddressNameError | server.go:163-169 | an A or AAAA query for a non-cluster name with no node in the store is NXDOMAIN with no answer and the SOA as authority |
| Server.AddressAnswer | server.go:163-186 | an A or AAAA query whose node exists is NOERROR; its answer is a permutation of the node's matching records (in store order without round-robin), and it carries the SOA exactly when that answer is empty |
| Server.SrvNeverAnswers | server.go:172-186 | an SRV query never gets records: NODATA with the SOA when the node exists, and NXDOMAIN exactly when it does not |
| Server.OtherTypesNoAnswer | server.go:151-186 | an in-zone query that is neither A nor AAAA, other than the apex SOA query and the apex DNSKEY query with a key, gets no answer and no extras, the SOA as authority, and is NXDOMAIN exactly when the store has no node at the name's path |
| Server.ClusterPanicWritesEmptyReply | server.go:140-149 | an apex A query whose cluster holds a non-IP member panics, but the deferred writer still sends the empty authoritative NOERROR skeleton |
| Server.ClusterAnswer | server.go:236-257 | an A or AAAA query for the apex or `master.` name whose member hosts are all IP addresses is answered with one record per parseable member, in member order, whatever the round-robin setting; a non-empty answer is NOERROR with no authority |
| Server.NameErrorIff | server.go:163-186 | for every query type, a reply written for a name in the zone is NXDOMAIN exactly when it has no answer and the store has no node at the name's path |
| Server.SuffixNotLabelBoundary | server.go:130-131 | with zone `skydns.local.`, the name `xskydns.local.` is answered from the zone rather than forwarded |

## Left out

- Network I/O is not modelled: listening, the UDP/TCP servers, the signal loop and `Start`/`Stop`. `ResponseWriter.WriteMsg` is the outcome's reply.
- The choice of TCP or UDP for forwarding and the 5-second read timeout are left out. Only whether an exchange reached its server matters to the reply.
- Logging is left out.
- The etcd client is not modelled. A lookup is one function from path to node, and every error, a missing key among them, is `None`.
- `url.Parse`, `net.SplitHostPort` and `net.ParseIP` are library code and are parameters.
- `dns.Id()` is a stream of draws.
- `time.Now()` is a single Unix time in seconds. Each request builds at most one SOA record, so one clock reading is enough.
- The NSEC and RRSIG records that `nsec` and `sign` add are not modelled; their code is not part of this model. Signing is a marker on the reply carrying the UDP size it was made for.
- The `KeyTag` and private-key fields are not modelled.
- The commented-out body of `SRVRecords` is not modelled. It is dead code.
- Names.Lower: lower-cases ASCII letters only, whereas `strings.ToLower` also folds non-ASCII letters.
- Names.SplitDomainName: ignores escaped dots (`\.`) inside labels, which `dns.SplitDomainName` honours.
- Message.SetReply: leaves out the opcode and the checking-disabled bit, which the request path never reads.
- Opcodes, classes other than IN, and the wire format are not modelled.
- The `domainLabels` field is computed by `NewServer` but read nowhere on the request path.
- A request is served from one snapshot of the store: the lookups of `AddressRecords` and `SRVRecords` read the same `get` function, so a change to the store between the two is not modelled.
- Records are built with the address bytes the parser returns. Their length (4 or 16) is the parser's business.

=== FILE: addresswalk.dfy ===
/** Address records built from store nodes: the leaf rule shared by the
    top level of `AddressRecords` (server.go:264-279) and the recursive
    directory walk `loopAddressNodes` (server.go:308-331). */
module AddressWalk {
  import opened Basics
  import opened Names
  import opened Message
  import opened Store

  /** A leaf answers an A query when its key ends in `/A`, and an AAAA
      query when its key ends in `/AAAA`. */
  predicate Matches(key: string, t: uint16) {
    (HasSuffix(key, "/A") && t == TypeA) || (HasSuffix(key, "/AAAA") && t == TypeAAAA)
  }

  /** The record a matching leaf yields: owner `q`, type `t`, class IN, the
      leaf's TTL cut to 32 bits, and the leaf's value parsed as an address
      of the queried family (nil when it does not parse). */
  function LeafRecord(n: Node, q: string, t: uint16, parseIP: string -> IP): RR
    requires n.Leaf?
  {
    var data := if t == TypeA then AData(parseIP(n.value).to4)
                else AAAAData(parseIP(n.value).to16);
    RR(Header(q, t, ClassINET, U32(n.ttl)), data)
  }

  /** The records one leaf contributes: one when its key matches the type,
      none otherwise. */
  function LeafRecords(n: Node, q: string, t: uint16, parseIP: string -> IP): (r: seq<RR>)
    requires n.Leaf?
    ensures |r| <= 1
    ensures |r| == 1 <==> Matches(n.key, t)
    ensures |r| == 1 ==> r[0].hdr == Header(q, t, ClassINET, U32(n.ttl))
    ensures |r| == 1 && t == TypeA ==> r[0].data == AData(parseIP(n.value).to4)
    ensures |r| == 1 && t == TypeAAAA ==> r[0].data == AAAAData(parseIP(n.value).to16)
  {
    if HasSuffix(n.key, "/A") && t == TypeA then [LeafRecord(n, q, t, parseIP)]
    else if HasSuffix(n.key, "/AAAA") && t == TypeAAAA then [LeafRecord(n, q, t, parseIP)]
    else []
  }

  /** `loopAddressNodes`: walk the children in order, descending into
      directories, collecting the records of the leaves. */
  function Walk(ns: seq<Node>, q: string, t: uint16, parseIP: string -> IP): (r: seq<RR>)
    ensures forall i :: 0 <= i < |r| ==>
      r[i].hdr.name == q && r[i].hdr.rrtype == t && r[i].hdr.rrclass == ClassINET
    ensures t != TypeA && t != TypeAAAA ==> r == []
    decreases ns
  {
    if |ns| == 0 then []
    else
      var head := match ns[0]
        case Dir(_, cs) => Walk(cs, q, t, parseIP)
        case Leaf(_, _, _) => LeafRecords(ns[0], q, t, parseIP);
      head + Walk(ns[1..], q, t, parseIP)
  }

  /** The top level of `AddressRecords` after a successful `Get`: a single
      leaf is checked on its own, a directory is walked. */
  function NodeRecords(n: Node, q: string, t: uint16, parseIP: string -> IP): seq<RR> {
    match n
    case Leaf(_, _, _) => LeafRecords(n, q, t, parseIP)
    case Dir(_, cs) => Walk(cs, q, t, parseIP)
  }

  // ----- An independent description of the walk: flatten, filter, build -----

  predicate AllLeaves(ls: seq<Node>) {
    forall i :: 0 <= i < |ls| ==> ls[i].Leaf?
  }

  /** Every leaf below `ns`, depth first, in child order. */
  function Leaves(ns: seq<Node>): (r: seq<Node>)
    ensures AllLeaves(r)
    decreases ns
  {
    if |ns| == 0 then []
    else
      var head := match ns[0]
        case Dir(_, cs) => Leaves(cs)
        case Leaf(_, _, _) => [ns[0]];
      head + Leaves(ns[1..])
  }

  /** The leaves whose key matches the query type, in order. */
  function Matching(ls: seq<Node>, t: uint16): (r: seq<Node>)
    requires AllLeaves(ls)
    ensures AllLeaves(r)
    ensures forall i :: 0 <= i < |r| ==> Matches(r[i].key, t)
    decreases |ls|
  {
    if |ls| == 0 then []
    else (if Matches(ls[0].key, t) then [ls[0]] else []) + Matching(ls[1..], t)
  }

  function RecordsOf(ls: seq<Node>, q: string, t: uint16, parseIP: string -> IP): seq<RR>
    requires AllLeaves(ls)
  {
    seq(|ls|, i requires 0 <= i < |ls| => LeafRecord(ls[i], q, t, parseIP))
  }

  lemma {:induction false} MatchingAppend(a: seq<Node>, b: seq<Node>, t: uint16)
    requires AllLeaves(a) && AllLeaves(b)
    ensures AllLeaves(a + b)
    ensures Matching(a + b, t) == Matching(a, t) + Matching(b, t)
    decreases |a|
  {
    if |a| == 0 {
      assert a + b == b;
    } else {
      assert (a + b)[1..] == a[1..] + b;
      MatchingAppend(a[1..], b, t);
    }
  }

  lemma RecordsOfAppend(a: seq<Node>, b: seq<Node>, q: string, t: uint16, parseIP: string -> IP)
    requires AllLeaves(a) && AllLeaves(b)
    ensures AllLeaves(a + b)
    ensures RecordsOf(a + b, q, t, parseIP) == RecordsOf(a, q, t, parseIP) + RecordsOf(b, q, t, parseIP)
  {
  }

  /** The walk yields exactly one record per matching leaf, at any depth, in
      depth-first child order; directories and non-matching leaves yield
      nothing. */
  lemma {:induction false} WalkIsMatchingLeaves(ns: seq<Node>, q: string, t: uint16, parseIP: string -> IP)
    ensures Walk(ns, q, t, parseIP) == RecordsOf(Matching(Leaves(ns), t), q, t, parseIP)
    decreases ns
  {
    if |ns| != 0 {
      var rest := ns[1..];
      WalkIsMatchingLeaves(rest, q, t, parseIP);
      var headLeaves := match ns[0]
        case Dir(_, cs) => Leaves(cs)
        case Leaf(_, _, _) => [ns[0]];
      if ns[0].Dir? {
        WalkIsMatchingLeaves(ns[0].children, q, t, parseIP);
      }
      MatchingAppend(headLeaves, Leaves(rest), t);
      RecordsOfAppend(Matching(headLeaves, t), Matching(Leaves(rest), t), q, t, parseIP);
    }
  }

  /** The count form of the same fact: one record per matching leaf. */
  lemma WalkCount(ns: seq<Node>, q: string, t: uint16, parseIP: string -> IP)
    ensures |Walk(ns, q, t, parseIP)| == |Matching(Leaves(ns), t)|
    ensures forall i :: 0 <= i < |Walk(ns, q, t, parseIP)| ==>
      Walk(ns, q, t, parseIP)[i].hdr.ttl == U32(Matching(Leaves(ns), t)[i].ttl)
    ensures forall i :: 0 <= i < |Walk(ns, q, t, parseIP)| ==>
      Walk(ns, q, t, parseIP)[i].data ==
        (if t == TypeA then AData(parseIP(Matching(Leaves(ns), t)[i].value).to4)
         else AAAAData(parseIP(Matching(Leaves(ns), t)[i].value).to16))
  {
    WalkIsMatchingLeaves(ns, q, t, parseIP);
  }

  /** The top-level leaf test and the walk agree: looking up a single node
      gives what walking a one-element child list gives. */
  lemma NodeRecordsIsWalk(n: Node, q: string, t: uint16, parseIP: string -> IP)
    ensures NodeRecords(n, q, t, parseIP) == Walk([n], q, t, parseIP)
  {
    assert [n][1..] == [];
  }

  /** Whatever node the lookup finds, a lone leaf or a directory, it yields
      one record per matching leaf at or below it, depth first. */
  lemma NodeRecordsAreMatchingLeaves(n: Node, q: string, t: uint16, parseIP: string -> IP)
    ensures NodeRecords(n, q, t, parseIP) == RecordsOf(Matching(Leaves([n]), t), q, t, parseIP)
  {
    NodeRecordsIsWalk(n, q, t, parseIP);
    WalkIsMatchingLeaves([n], q, t, parseIP);
  }

  /** Walking a concatenation of child lists concatenates the results. */
  lemma {:induction false} WalkAppend(a: seq<Node>, b: seq<Node>, q: string, t: uint16, parseIP: string -> IP)
    ensures Walk(a + b, q, t, parseIP) == Walk(a, q, t, parseIP) + Walk(b, q, t, parseIP)
    decreases |a|
  {
    if |a| == 0 {
      assert a + b == b;
    } else {
      assert (a + b)[0] == a[0];
      assert (a + b)[1..] == a[1..] + b;
      WalkAppend(a[1..], b, q, t, parseIP);
    }
  }
}

=== FILE: basics.dfy ===
/** Small shared vocabulary: an Option type and the fixed-width unsigned
    integers the server's wire types use. */
module Basics {

  /** A value that may be absent (Go's nil pointer / error-or-value). */
  datatype Option<+T> = None | Some(value: T)

  const TwoTo32: int := 0x1_0000_0000

  type byte = x: int | 0 <= x < 0x100
  type uint16 = x: int | 0 <= x < 0x1_0000
  type uint32 = x: int | 0 <= x < 0x1_0000_0000

  /** Go's conversion `uint32(x)` from a wider signed integer: keep the low
      32 bits. Dafny's `%` is Euclidean, which is exactly two's-complement
      truncation for a positive modulus. */
  function U32(x: int): (r: uint32)
    ensures 0 <= x < TwoTo32 ==> r == x
    ensures (r - x) % TwoTo32 == 0
  {
    x % TwoTo32
  }
}

=== FILE: cluster.dfy ===
/** The cluster-membership shortcut of `AddressRecords` (server.go:236-257):
    a query for the zone apex or for `master.` plus the zone is answered
    from the store's cluster member list instead of the store tree. */
module Cluster {
  import opened Basics
  import opened Message
  import opened Store

  /** The host of a member URL: `url.Parse` then `net.SplitHostPort` on its
      `Host`; `None` when either fails, and such a member is skipped. */
  function HostOf(m: string, net: NetParsers): Option<string> {
    match net.urlHost(m)
    case None => None
    case Some(hostPort) => net.splitHostPort(hostPort)
  }

  /** The record for one member host: an A record when the host is an IPv4
      address and the query is for A, otherwise an AAAA record when it is
      any IP address, and `None` (the source panics) when it is not an IP
      address at all. Owner is the question name as asked, TTL the zone
      default. */
  function AddressRR(h: string, q: Question, ttl: uint32, net: NetParsers): (r: Option<RR>)
    ensures r.None? <==> net.parseIP(h).to16.None? && !(q.qtype == TypeA && net.parseIP(h).to4.Some?)
    ensures r.Some? ==>
      r.value.hdr.name == q.name && r.value.hdr.rrclass == ClassINET && r.value.hdr.ttl == ttl
    ensures r.Some? ==> (r.value.hdr.rrtype == TypeA <==> q.qtype == TypeA && net.parseIP(h).to4.Some?)
  {
    var ip := net.parseIP(h);
    if ip.to4.Some? && q.qtype == TypeA then
      Some(RR(Header(q.name, TypeA, ClassINET, ttl), AData(ip.to4)))
    else if ip.to16.Some? then
      Some(RR(Header(q.name, TypeAAAA, ClassINET, ttl), AAAAData(ip.to16)))
    else None
  }

  /** The hosts of the members whose URL and host:port both parse, in
      member order. */
  function Hosts(members: seq<string>, net: NetParsers): (hs: seq<string>)
    ensures |hs| <= |members|
    ensures forall h :: h in hs <==>
      exists k :: 0 <= k < |members| && HostOf(members[k], net) == Some(h)
    decreases |members|
  {
    if |members| == 0 then []
    else
      var rest := Hosts(members[1..], net);
      match HostOf(members[0], net)
      case None => rest
      case Some(h) => [h] + rest
  }

  /** Every host is an IP address, so that no member makes the loop panic. */
  predicate AllAddresses(hs: seq<string>, q: Question, ttl: uint32, net: NetParsers) {
    forall k :: 0 <= k < |hs| ==> AddressRR(hs[k], q, ttl, net).Some?
  }

  /** The records of a list of IP hosts, one per host, in order. */
  function RecordsFor(hs: seq<string>, q: Question, ttl: uint32, net: NetParsers): (r: seq<RR>)
    requires AllAddresses(hs, q, ttl, net)
    ensures |r| == |hs|
    ensures forall k :: 0 <= k < |hs| ==> Some(r[k]) == AddressRR(hs[k], q, ttl, net)
  {
    seq(|hs|, k requires 0 <= k < |hs| => AddressRR(hs[k], q, ttl, net).value)
  }

  /** The loop over `GetCluster()`, with `None` standing for the panic on a
      member host that is not an IP address. Every record it builds carries
      the question name as asked and the zone's default TTL. */
  function ClusterRecords(members: seq<string>, q: Question, ttl: uint32, net: NetParsers)
    : (r: Option<seq<RR>>)
    ensures r.Some? ==> |r.value| <= |members|
    ensures r.Some? ==> forall k :: 0 <= k < |r.value| ==>
      r.value[k].hdr.name == q.name && r.value[k].hdr.ttl == ttl
  {
    if |members| == 0 then Some([])
    else
      var rest := ClusterRecords(members[1..], q, ttl, net);
      match HostOf(members[0], net)
      case None => rest
      case Some(h) =>
        match AddressRR(h, q, ttl, net)
        case None => None
        case Some(rr) => if rest.None? then None else Some([rr] + rest.value)
  }

  lemma AllAddressesCons(h: string, hs: seq<string>, q: Question, ttl: uint32, net: NetParsers)
    ensures AllAddresses([h] + hs, q, ttl, net)
        <==> AddressRR(h, q, ttl, net).Some? && AllAddresses(hs, q, ttl, net)
  {
    var all := [h] + hs;
    assert all[0] == h;
    assert forall k :: 0 <= k < |hs| ==> all[k + 1] == hs[k];
  }

  lemma RecordsForCons(h: string, hs: seq<string>, q: Question, ttl: uint32, net: NetParsers)
    requires AddressRR(h, q, ttl, net).Some? && AllAddresses(hs, q, ttl, net)
    ensures AllAddresses([h] + hs, q, ttl, net)
    ensures RecordsFor([h] + hs, q, ttl, net)
         == [AddressRR(h, q, ttl, net).value] + RecordsFor(hs, q, ttl, net)
  {
    AllAddressesCons(h, hs, q, ttl, net);
  }

  /** The loop agrees with the two-stage reading: keep the hosts of the
      parseable members; the whole answer fails if one of them is not an IP
      address, and otherwise holds one record per host, in member order. */
  lemma {:induction false} ClusterRecordsSpec(members: seq<string>, q: Question, ttl: uint32, net: NetParsers)
    ensures ClusterRecords(members, q, ttl, net).Some?
        <==> AllAddresses(Hosts(members, net), q, ttl, net)
    ensures ClusterRecords(members, q, ttl, net).Some? ==>
      ClusterRecords(members, q, ttl, net).value == RecordsFor(Hosts(members, net), q, ttl, net)
    decreases |members|
  {
    if |members| > 0 {
      var rest := ClusterRecords(members[1..], q, ttl, net);
      var restHs := Hosts(members[1..], net);
      ClusterRecordsSpec(members[1..], q, ttl, net);
      var host := HostOf(members[0], net);
      if host.Some? {
        var h := host.value;
        assert Hosts(members, net) == [h] + restHs;
        AllAddressesCons(h, restHs, q, ttl, net);
        var a := AddressRR(h, q, ttl, net);
        if a.Some? && rest.Some? {
          RecordsForCons(h, restHs, q, ttl, net);
          assert ClusterRecords(members, q, ttl, net) == Some([a.value] + rest.value);
        }
      }
    }
  }

  /** Every synthesized record carries the question name and the zone's
      default TTL; it is an A record exactly for an A query on an IPv4 host,
      and an AAAA record otherwise. */
  lemma ClusterRecordShape(members: seq<string>, q: Question, ttl: uint32, net: NetParsers, k: nat)
    requires ClusterRecords(members, q, ttl, net).Some?
    requires k < |ClusterRecords(members, q, ttl, net).value|
    ensures k < |Hosts(members, net)|
    ensures var rr := ClusterRecords(members, q, ttl, net).value[k];
      var ip := net.parseIP(Hosts(members, net)[k]);
      && rr.hdr.name == q.name && rr.hdr.ttl == ttl && rr.hdr.rrclass == ClassINET
      && (rr.hdr.rrtype == TypeA <==> q.qtype == TypeA && ip.to4.Some?)
      && (rr.hdr.rrtype == TypeA ==> rr.data == AData(ip.to4))
      && (rr.hdr.rrtype != TypeA ==> rr.hdr.rrtype == TypeAAAA && rr.data == AAAAData(ip.to16))
  {
    ClusterRecordsSpec(members, q, ttl, net);
  }

  /** A member list of one IPv4 and one IPv6 address answers an A query
      with one A and one AAAA record, both with the zone's default TTL. */
  lemma ClusterMixedFamilies(m4: string, m6: string, h4: string, h6: string,
                             a4: seq<byte>, a6: seq<byte>,
                             q: Question, ttl: uint32, net: NetParsers)
    requires q.qtype == TypeA
    requires HostOf(m4, net) == Some(h4) && HostOf(m6, net) == Some(h6)
    requires net.parseIP(h4).to4 == Some(a4)
    requires net.parseIP(h6).to4.None? && net.parseIP(h6).to16 == Some(a6)
    ensures ClusterRecords([m4, m6], q, ttl, net)
         == Some([RR(Header(q.name, TypeA, ClassINET, ttl), AData(Some(a4))),
                  RR(Header(q.name, TypeAAAA, ClassINET, ttl), AAAAData(Some(a6)))])
  {
    var rr4 := RR(Header(q.name, TypeA, ClassINET, ttl), AData(Some(a4)));
    var rr6 := RR(Header(q.name, TypeAAAA, ClassINET, ttl), AAAAData(Some(a6)));
    assert AddressRR(h4, q, ttl, net) == Some(rr4);
    assert AddressRR(h6, q, ttl, net) == Some(rr6);
    var none: seq<string> := [];
    assert ClusterRecords(none, q, ttl, net) == Some([]);
    assert [m6][1..] == none && [m6][0] == m6;
    var r6 := ClusterRecords([m6], q, ttl, net);
    assert HostOf([m6][0], net) == Some(h6);
    assert r6 == Some([rr6] + []);
    assert [rr6] + [] == [rr6];
    assert [m4, m6][1..] == [m6] && [m4, m6][0] == m4;
    assert HostOf([m4, m6][0], net) == Some(h4);
    assert ClusterRecords([m4, m6][1..], q, ttl, net) == Some([rr6]);
    assert ClusterRecords([m4, m6], q, ttl, net) == Some([rr4] + [rr6]);
    assert [rr4] + [rr6] == [rr4, rr6];
  }

  /** A member whose host is not an IP address makes the whole shortcut
      panic, whatever the other members are. */
  lemma ClusterPanicsOnNonIP(members: seq<string>, k: nat, q: Question, ttl: uint32, net: NetParsers)
    requires k < |Hosts(members, net)|
    requires net.parseIP(Hosts(members, net)[k]) == IP(None, None)
    ensures ClusterRecords(members, q, ttl, net).None?
  {
    ClusterRecordsSpec(members, q, ttl, net);
  }
}

=== FILE: forward.dfy ===
/** Forwarding of queries outside the zone to upstream nameservers
    (`ServeDNSForward`, server.go:190-232). The network exchanges are an
    input stream: `outcome(k)` is what the `k`-th `Exchange` call (0-based)
    returns. */
module Forward {
  import opened Basics
  import opened Message

  /** The result of one `c.Exchange`: the upstream's response, or an error
      (the server was not reached). */
  datatype Exchange = Reached(resp: Msg) | Unreached

  type ExchangeStream = nat -> Exchange

  /** The message written back, and the indices into the nameserver list of
      the servers an exchange was attempted with, in order. */
  datatype Forwarded = Forwarded(reply: Msg, tried: seq<nat>)

  /** A fresh SERVFAIL reply to `req`: `new(dns.Msg)`, `SetReply`, then
      `SetRcode`. */
  function ServFail(req: Msg): (m: Msg)
    ensures m.rcode == RcodeServerFailure && m.id == req.id && m.response
    ensures !m.authoritative && !m.recursionAvailable
    ensures m.answer == [] && m.ns == [] && m.extra == []
  {
    SetRcode(SetReply(EmptyMsg, req), req, RcodeServerFailure)
  }

  /** The `Redo:` loop from attempt `try`, aimed at server `nsid` of `n`: a
      reached server's reply is written verbatim; after a failure the next
      server (wrapping) is tried while `try < n`; otherwise a plain
      SERVFAIL. The first server is tried at `try = 0` and again at
      `try = n`, so there are up to `n + 1` attempts. */
  function Redo(req: Msg, n: nat, outcome: ExchangeStream, nsid: nat, try: nat): (r: Forwarded)
    requires 0 < n && nsid < n && try <= n
    ensures 1 <= |r.tried| <= n + 1 - try
    ensures forall k :: 0 <= k < |r.tried| ==> r.tried[k] < n
    decreases n - try
  {
    match outcome(try)
    case Reached(resp) => Forwarded(resp, [nsid])
    case Unreached =>
      if try < n then
        var rest := Redo(req, n, outcome, (nsid + 1) % n, try + 1);
        Forwarded(rest.reply, [nsid] + rest.tried)
      else Forwarded(ServFail(req), [nsid])
  }

  /** `ServeDNSForward`: with no nameservers, an immediate SERVFAIL that is
      not authoritative but offers recursion; otherwise the retry loop
      starting at the server the request id selects. */
  function ServeDNSForward(req: Msg, nameservers: seq<string>, outcome: ExchangeStream): (r: Forwarded)
    ensures |nameservers| == 0 ==> r.tried == []
    ensures |nameservers| > 0 ==> 1 <= |r.tried| <= |nameservers| + 1
  {
    if |nameservers| == 0 then
      Forwarded(ServFail(req).(authoritative := false, recursionAvailable := true), [])
    else
      Redo(req, |nameservers|, outcome, req.id % |nameservers|, 0)
  }

  /** `x mod n` for `x < 2n`, written without the modulus. */
  function Wrap(x: nat, n: nat): nat {
    if x < n then x else x - n
  }

  lemma WrapIsMod(x: nat, n: nat)
    requires 0 < n && x < 2 * n
    ensures Wrap(x, n) == x % n
  {
    if x >= n {
      assert x == n + (x - n);
    }
  }

  lemma NextIsWrap(i: nat, n: nat)
    requires i < n
    ensures (i + 1) % n == (if i + 1 == n then 0 else i + 1)
  {
  }

  /** Attempt `k` of the loop started at server `nsid` goes to server
      `(nsid + k) mod n`, which stays below `2n` before the reduction. */
  lemma {:induction false} RedoTarget(req: Msg, n: nat, outcome: ExchangeStream, nsid: nat, try: nat, k: nat)
    requires 0 < n && nsid < n && try <= n
    requires k < |Redo(req, n, outcome, nsid, try).tried|
    ensures k < n + 1 - try
    ensures Redo(req, n, outcome, nsid, try).tried[k] == Wrap(nsid + k, n)
    decreases k
  {
    if k > 0 {
      NextIsWrap(nsid, n);
      var next: nat := if nsid + 1 == n then 0 else nsid + 1;
      var rest := Redo(req, n, outcome, next, try + 1);
      assert Redo(req, n, outcome, nsid, try).tried == [nsid] + rest.tried;
      RedoTarget(req, n, outcome, next, try + 1, k - 1);
    }
  }

  /** Every attempt of the loop but the last failed; the last either
      reached its server, whose reply is returned verbatim, or was attempt
      `n` and failed, giving a plain SERVFAIL. */
  lemma {:induction false} RedoOutcome(req: Msg, n: nat, outcome: ExchangeStream, nsid: nat, try: nat)
    requires 0 < n && nsid < n && try <= n
    ensures var r := Redo(req, n, outcome, nsid, try);
      var last := try + |r.tried| - 1;
      && (forall i :: try <= i < last ==> outcome(i).Unreached?)
      && (outcome(last).Reached? ==> r.reply == outcome(last).resp)
      && (outcome(last).Unreached? ==> last == n && r.reply == ServFail(req))
    decreases n - try
  {
    if outcome(try).Unreached? && try < n {
      var next := (nsid + 1) % n;
      RedoOutcome(req, n, outcome, next, try + 1);
      var r := Redo(req, n, outcome, nsid, try);
      var rest := Redo(req, n, outcome, next, try + 1);
      assert |r.tried| == |rest.tried| + 1;
      assert r.reply == rest.reply;
    }
  }

  /** With no nameservers configured nothing is exchanged and the reply is
      a SERVFAIL with Authoritative off and RecursionAvailable on. */
  lemma ForwardWithoutServers(req: Msg, outcome: ExchangeStream)
    ensures var r := ServeDNSForward(req, [], outcome);
      && r.tried == []
      && r.reply.rcode == RcodeServerFailure && r.reply.id == req.id
      && !r.reply.authoritative && r.reply.recursionAvailable
  {
  }

  /** Attempt `k` targets server `(id mod n + k) mod n`; there are at most
      `n + 1` attempts. */
  lemma ForwardTargets(req: Msg, nameservers: seq<string>, outcome: ExchangeStream)
    requires |nameservers| > 0
    ensures var r := ServeDNSForward(req, nameservers, outcome);
      var n := |nameservers|;
      && 1 <= |r.tried| <= n + 1
      && forall k :: 0 <= k < |r.tried| ==> r.tried[k] == (req.id % n + k) % n
  {
    var n := |nameservers|;
    var r := ServeDNSForward(req, nameservers, outcome);
    assert r == Redo(req, n, outcome, req.id % n, 0);
    forall k | 0 <= k < |r.tried|
      ensures r.tried[k] == (req.id % n + k) % n
    {
      RedoTarget(req, n, outcome, req.id % n, 0, k);
      WrapIsMod(req.id % n + k, n);
    }
  }

  /** The first exchange that reaches its server, at attempt `k <= n`,
      decides: its reply is returned verbatim and no further attempt
      happens. */
  lemma ForwardFirstSuccess(req: Msg, nameservers: seq<string>, outcome: ExchangeStream, k: nat)
    requires |nameservers| > 0 && k <= |nameservers|
    requires forall i :: 0 <= i < k ==> outcome(i).Unreached?
    requires outcome(k).Reached?
    ensures ServeDNSForward(req, nameservers, outcome).reply == outcome(k).resp
    ensures |ServeDNSForward(req, nameservers, outcome).tried| == k + 1
  {
    var n := |nameservers|;
    RedoOutcome(req, n, outcome, req.id % n, 0);
    var r := ServeDNSForward(req, nameservers, outcome);
    var last: nat := |r.tried| - 1;
    assert k < last ==> outcome(k).Unreached?;
    assert last < k ==> outcome(last).Unreached?;
  }

  /** When all `n + 1` exchanges fail, exactly `n + 1` attempts happen, the
      starting server is tried twice (first and last), and the reply is a
      plain SERVFAIL. */
  lemma ForwardAllFail(req: Msg, nameservers: seq<string>, outcome: ExchangeStream)
    requires |nameservers| > 0
    requires forall i :: 0 <= i <= |nameservers| ==> outcome(i).Unreached?
    ensures var r := ServeDNSForward(req, nameservers, outcome);
      && |r.tried| == |nameservers| + 1
      && r.tried[0] == r.tried[|nameservers|] == req.id % |nameservers|
      && r.reply == ServFail(req)
  {
    var n := |nameservers|;
    RedoOutcome(req, n, outcome, req.id % n, 0);
    var r := ServeDNSForward(req, nameservers, outcome);
    var last: nat := |r.tried| - 1;
    assert last < n ==> outcome(last).Unreached?;
    RedoTarget(req, n, outcome, req.id % n, 0, 0);
    RedoTarget(req, n, outcome, req.id % n, 0, last);
  }

  /** The reply comes from an upstream exactly when one of the first `n + 1`
      exchanges reached its server; otherwise it is the plain SERVFAIL. */
  lemma ForwardReachedIff(req: Msg, nameservers: seq<string>, outcome: ExchangeStream)
    requires |nameservers| > 0
    ensures var r := ServeDNSForward(req, nameservers, outcome);
      (exists i :: 0 <= i <= |nameservers| && outcome(i).Reached?)
      <==> outcome(|r.tried| - 1).Reached?
  {
    var n := |nameservers|;
    RedoOutcome(req, n, outcome, req.id % n, 0);
  }
}

=== FILE: message.dfy ===
/** The DNS message vocabulary the server reads and writes: questions,
    resource records, and messages with the header bits and sections the
    request path touches. Only the fields the server reads or sets are
    modelled. */
module Message {
  import opened Basics

  const TypeA: uint16 := 1
  const TypeSOA: uint16 := 6
  const TypeAAAA: uint16 := 28
  const TypeSRV: uint16 := 33
  const TypeDNSKEY: uint16 := 48
  const TypeANY: uint16 := 255

  const ClassINET: uint16 := 1

  const RcodeSuccess: nat := 0
  const RcodeServerFailure: nat := 2
  const RcodeNameError: nat := 3

  datatype Question = Question(name: string, qtype: uint16, qclass: uint16)

  datatype Header = Header(name: string, rrtype: uint16, rrclass: uint16, ttl: uint32)

  /** Record data. An address is `None` when the parsed text has no form of
      that width (`To4()` or `To16()` is nil, as for a value that is not an
      IP address); Go stores a nil slice. */
  datatype RData =
    | AData(a: Option<seq<byte>>)
    | AAAAData(aaaa: Option<seq<byte>>)
    | SOAData(ns: string, mbox: string, serial: uint32,
              refresh: uint32, retry: uint32, expire: uint32, minttl: uint32)

  datatype RR = RR(hdr: Header, data: RData)

  /** The EDNS0 OPT pseudo-record of a request: the DNSSEC-OK bit and the
      advertised UDP payload size. */
  datatype Edns = Edns(dnssecOk: bool, udpSize: uint16)

  /** A DNS message. `signedFor` records that the DNSSEC signer ran on the
      message, and for which UDP payload size; the NSEC and RRSIG records it
      adds are not modelled. */
  datatype Msg = Msg(
    id: uint16,
    response: bool,
    recursionDesired: bool,
    authoritative: bool,
    recursionAvailable: bool,
    rcode: nat,
    question: seq<Question>,
    answer: seq<RR>,
    ns: seq<RR>,
    extra: seq<RR>,
    edns: Option<Edns>,
    signedFor: Option<uint16>)

  /** `new(dns.Msg)`: every field zero. */
  const EmptyMsg: Msg :=
    Msg(0, false, false, false, false, RcodeSuccess, [], [], [], [], None, None)

  /** `m.SetReply(req)`: copy the id, the RD bit and the first question of
      the request, mark the message a response with rcode NOERROR. */
  function SetReply(m: Msg, req: Msg): (r: Msg)
    ensures r.id == req.id && r.response && r.rcode == RcodeSuccess
    ensures |req.question| > 0 ==> r.question == [req.question[0]]
    ensures r.authoritative == m.authoritative
    ensures r.recursionAvailable == m.recursionAvailable
    ensures r.answer == m.answer && r.ns == m.ns && r.extra == m.extra
  {
    m.(id := req.id, response := true, recursionDesired := req.recursionDesired,
       rcode := RcodeSuccess,
       question := if |req.question| > 0 then [req.question[0]] else m.question)
  }

  /** `m.SetRcode(req, rcode)`: `SetReply` again, then the response code. It
      leaves the flags and the sections alone. */
  function SetRcode(m: Msg, req: Msg, rcode: nat): (r: Msg)
    ensures r.rcode == rcode && r.id == req.id && r.response
    ensures r.authoritative == m.authoritative
    ensures r.recursionAvailable == m.recursionAvailable
    ensures r.answer == m.answer && r.ns == m.ns && r.extra == m.extra
    ensures r.signedFor == m.signedFor
  {
    SetReply(m, req).(rcode := rcode)
  }
}

=== FILE: names.dfy ===
/** Domain-name text handling used by the request path: ASCII lower-casing,
    plain string suffix tests, fully-qualifying a name, splitting a name into
    labels, and the name-to-store-path mapping `questionToPath`
    (server.go:456-463). */
module Names {

  /** `strings.ToLower` restricted to ASCII letters. */
  function LowerChar(c: char): char {
    if 'A' <= c <= 'Z' then (c as int + 32) as char else c
  }

  predicate IsLower(s: string) {
    forall i :: 0 <= i < |s| ==> !('A' <= s[i] <= 'Z')
  }

  /** `strings.ToLower` on ASCII: the result has no upper-case letter, keeps
      the length, and leaves an already lower-case string unchanged. */
  function Lower(s: string): (r: string)
    ensures |r| == |s|
    ensures forall i :: 0 <= i < |s| ==> r[i] == LowerChar(s[i])
    ensures IsLower(r)
    ensures IsLower(s) ==> r == s
  {
    seq(|s|, i requires 0 <= i < |s| => LowerChar(s[i]))
  }

  lemma LowerIdempotent(s: string)
    ensures Lower(Lower(s)) == Lower(s)
  {
  }

  lemma LowerAppend(a: string, b: string)
    ensures Lower(a + b) == Lower(a) + Lower(b)
  {
  }

  /** `strings.HasSuffix`: a plain character suffix, with no regard to label
      boundaries. */
  predicate HasSuffix(s: string, suffix: string) {
    |suffix| <= |s| && s[|s| - |suffix|..] == suffix
  }

  /** `dns.IsFqdn`, ignoring escaped dots: the name ends in a dot. */
  predicate IsFqdn(s: string) {
    |s| > 0 && s[|s| - 1] == '.'
  }

  /** `dns.Fqdn`: append the root dot unless it is already there. */
  function Fqdn(s: string): (r: string)
    ensures IsFqdn(r)
    ensures IsFqdn(s) ==> r == s
    ensures !IsFqdn(s) ==> r == s + "."
  {
    if IsFqdn(s) then s else s + "."
  }

  /** Go's `strings.Split(s, sep)` for a one-character separator: always at
      least one piece, the pieces between consecutive separators. */
  function SplitOn(s: string, sep: char): (r: seq<string>)
    ensures |r| >= 1
    decreases |s|
  {
    if |s| == 0 then [""]
    else
      var rest := SplitOn(s[1..], sep);
      if s[0] == sep then [""] + rest
      else [[s[0]] + rest[0]] + rest[1..]
  }

  /** Go's `strings.Join(ls, sep)`. */
  function Join(ls: seq<string>, sep: char): string
    decreases |ls|
  {
    if |ls| == 0 then ""
    else if |ls| == 1 then ls[0]
    else ls[0] + [sep] + Join(ls[1..], sep)
  }

  function Reverse<T>(s: seq<T>): (r: seq<T>)
    ensures |r| == |s|
    ensures forall i :: 0 <= i < |s| ==> r[i] == s[|s| - 1 - i]
  {
    seq(|s|, i requires 0 <= i < |s| => s[|s| - 1 - i])
  }

  lemma ReverseReverse<T>(s: seq<T>)
    ensures Reverse(Reverse(s)) == s
  {
  }

  predicate NoSeparator(ls: seq<string>, sep: char) {
    forall i :: 0 <= i < |ls| ==> sep !in ls[i]
  }

  /** `dns.SplitDomainName` for names without escaped dots: the empty name
      and the root have no labels; otherwise the trailing root dot is
      dropped and the rest is cut at every dot. */
  function SplitDomainName(s: string): (labels: seq<string>)
    ensures s == "" || s == "." <==> |labels| == 0
  {
    if s == "" || s == "." then []
    else SplitOn(if IsFqdn(s) then s[..|s| - 1] else s, '.')
  }

  /** `questionToPath`: the labels in reverse order, joined with `/`, with
      no leading slash and no escaping of a `/` inside a label. The root
      and the empty name have no labels and map to the empty path. */
  function QuestionToPath(name: string): (p: string)
    ensures name == "" || name == "." ==> p == ""
  {
    Join(Reverse(SplitDomainName(name)), '/')
  }

  /** Splitting a text that has no separator in its first part. */
  lemma {:induction false} SplitPrefix(a: string, tail: string, sep: char)
    requires sep !in a
    ensures SplitOn(a + tail, sep)
         == [a + SplitOn(tail, sep)[0]] + SplitOn(tail, sep)[1..]
    decreases |a|
  {
    if |a| == 0 {
      var r := SplitOn(tail, sep);
      assert a + tail == tail;
      assert r == [r[0]] + r[1..];
      assert a + r[0] == r[0];
    } else {
      assert (a + tail)[1..] == a[1..] + tail;
      SplitPrefix(a[1..], tail, sep);
      assert [a[0]] + (a[1..] + SplitOn(tail, sep)[0]) == a + SplitOn(tail, sep)[0];
    }
  }

  /** Splitting a join gives back the pieces, provided no piece contains the
      separator. */
  lemma {:induction false} SplitJoin(ls: seq<string>, sep: char)
    requires |ls| >= 1
    requires NoSeparator(ls, sep)
    ensures SplitOn(Join(ls, sep), sep) == ls
    decreases |ls|
  {
    if |ls| == 1 {
      SplitPrefix(ls[0], "", sep);
      assert ls[0] + "" == ls[0];
    } else {
      var rest := Join(ls[1..], sep);
      SplitJoin(ls[1..], sep);
      assert sep !in ls[0];
      assert ls[0] + [sep] + rest == ls[0] + ([sep] + rest);
      SplitPrefix(ls[0], [sep] + rest, sep);
      assert ([sep] + rest)[1..] == rest;
      assert ls[0] + "" == ls[0];
      assert ls == [ls[0]] + ls[1..];
    }
  }

  /** The path has exactly one segment per label, and reading the segments
      backwards gives the labels back, when no label contains `/`. */
  lemma QuestionToPathRoundTrip(name: string)
    requires |SplitDomainName(name)| >= 1
    requires NoSeparator(SplitDomainName(name), '/')
    ensures |SplitOn(QuestionToPath(name), '/')| == |SplitDomainName(name)|
    ensures Reverse(SplitOn(QuestionToPath(name), '/')) == SplitDomainName(name)
  {
    var labels := SplitDomainName(name);
    assert NoSeparator(Reverse(labels), '/');
    SplitJoin(Reverse(labels), '/');
    ReverseReverse(labels);
  }

  /** The store path of a service name, e.g.
      `service.staging.skydns.local.` is `local/skydns/staging/service`. */
  lemma QuestionToPathExample()
    ensures QuestionToPath("svc.env.zone.") == "zone/env/svc"
  {
    var labels := SplitDomainName("svc.env.zone.");
    assert "svc.env.zone."[..12] == "svc.env.zone";
    assert Join(["svc", "env", "zone"], '.') == "svc.env.zone";
    SplitJoin(["svc", "env", "zone"], '.');
    assert labels == ["svc", "env", "zone"];
    assert Reverse(labels) == ["zone", "env", "svc"];
    assert Join(["zone", "env", "svc"], '/') == "zone/env/svc";
  }

  /** No escaping: a `/` inside a label produces an extra path segment, so
      the two-label name `a/b.c.` maps to a three-segment path. */
  lemma QuestionToPathSlashInLabel()
    ensures SplitDomainName("a/b.c.") == ["a/b", "c"]
    ensures QuestionToPath("a/b.c.") == "c/a/b"
    ensures |SplitOn(QuestionToPath("a/b.c."), '/')| == 3
  {
    assert "a/b.c."[..5] == "a/b.c";
    assert Join(["a/b", "c"], '.') == "a/b.c";
    SplitJoin(["a/b", "c"], '.');
    assert SplitDomainName("a/b.c.") == ["a/b", "c"];
    assert Reverse(["a/b", "c"]) == ["c", "a/b"];
    assert QuestionToPath("a/b.c.") == "c/a/b";
    assert Join(["c", "a", "b"], '/') == "c/a/b";
    SplitJoin(["c", "a", "b"], '/');
  }

  /** Lower-casing keeps and creates no dots, so it cuts a name at the same
      places. */
  lemma {:induction false} SplitOnLower(s: string)
    ensures |SplitOn(Lower(s), '.')| == |SplitOn(s, '.')|
    decreases |s|
  {
    if |s| > 0 {
      assert Lower(s)[1..] == Lower(s[1..]);
      assert Lower(s)[0] == '.' <==> s[0] == '.';
      SplitOnLower(s[1..]);
    }
  }

  /** Lower-casing keeps the trailing root dot, commutes with qualifying a
      name, and keeps its number of labels. */
  lemma LowerFqdn(s: string)
    ensures IsFqdn(Lower(s)) <==> IsFqdn(s)
    ensures Fqdn(Lower(s)) == Lower(Fqdn(s))
    ensures |SplitDomainName(Lower(s))| == |SplitDomainName(s)|
  {
    if !IsFqdn(s) {
      LowerAppend(s, ".");
      assert Lower(".") == ".";
    }
    if s != "" && s != "." {
      assert Lower(s)[0] == '.' <==> s[0] == '.';
      if IsFqdn(s) {
        assert Lower(s)[..|s| - 1] == Lower(s[..|s| - 1]);
        SplitOnLower(s[..|s| - 1]);
      } else {
        SplitOnLower(s);
      }
    } else {
      assert s == "" ==> Lower(s) == "";
      assert s == "." ==> Lower(s) == ".";
    }
  }
}

=== FILE: roundrobin.dfy ===
/** Round-robin reordering of an address answer (server.go:284-302). The
    pseudo-random source is `dns.Id()`, and every call of it is a fresh
    draw, so the draws are an input stream: draw `k` is the `k`-th call. */
module RoundRobin {
  import opened Basics
  import opened Message

  type IdStream = nat -> uint16

  /** One exchange of the records at positions `i` and `j`. */
  datatype Swap = Swap(i: nat, j: nat)

  /** The reordered records and the swaps performed, in order. */
  datatype Shuffled = Shuffled(records: seq<RR>, swaps: seq<Swap>)

  function SwapAt<T>(s: seq<T>, i: nat, j: nat): (r: seq<T>)
    requires i < |s| && j < |s|
    ensures |r| == |s|
  {
    s[i := s[j]][j := s[i]]
  }

  /** A swap exchanges the two entries and leaves the rest in place. */
  lemma SwapAtEffect<T>(s: seq<T>, i: nat, j: nat)
    requires i < |s| && j < |s|
    ensures SwapAt(s, i, j)[i] == s[j] && SwapAt(s, i, j)[j] == s[i]
    ensures forall k :: 0 <= k < |s| && k != i && k != j ==> SwapAt(s, i, j)[k] == s[k]
    ensures multiset(SwapAt(s, i, j)) == multiset(s)
  {
  }

  /** Every swap exchanges two distinct positions inside a sequence of
      length `n`. */
  predicate ProperSwaps(sw: seq<Swap>, n: nat) {
    forall k :: 0 <= k < |sw| ==> sw[k].i < n && sw[k].j < n && sw[k].i != sw[k].j
  }

  /** The reference reading of a swap list: apply the swaps in order. */
  function ApplySwaps<T>(s: seq<T>, sw: seq<Swap>): (r: seq<T>)
    requires ProperSwaps(sw, |s|)
    ensures |r| == |s|
    decreases |sw|
  {
    if |sw| == 0 then s
    else ApplySwaps(SwapAt(s, sw[0].i, sw[0].j), sw[1..])
  }

  /** Applying proper swaps only reorders: the result is a permutation. */
  lemma {:induction false} ApplySwapsPermutes<T>(s: seq<T>, sw: seq<Swap>)
    requires ProperSwaps(sw, |s|)
    ensures multiset(ApplySwaps(s, sw)) == multiset(s)
    decreases |sw|
  {
    if |sw| > 0 {
      SwapAtEffect(s, sw[0].i, sw[0].j);
      ApplySwapsPermutes(SwapAt(s, sw[0].i, sw[0].j), sw[1..]);
    }
  }

  /** The loop bound `l*(int(dns.Id())%4+1)` for one draw `d`, written
      without a product so that the solver stays in linear arithmetic. */
  function Bound(l: nat, d: uint16): (b: nat)
    ensures l <= b <= 4 * l
  {
    match d % 4
    case 0 => l
    case 1 => 2 * l
    case 2 => 3 * l
    case _ => 4 * l
  }

  /** The case split above is the source's product. */
  lemma BoundIsProduct(l: nat, d: uint16)
    ensures Bound(l, d) == l * (d % 4 + 1)
  {
  }

  /** The two positions one loop iteration swaps, from the draws `at` and
      `at + 1`: `q` and `p` modulo `l`, with `p` moved one step on (wrapping)
      when it equals `q`. */
  function PickSwap(ids: IdStream, at: nat, l: nat): (sw: Swap)
    requires l >= 2
    ensures sw.i < l && sw.j < l && sw.i != sw.j
  {
    var q := ids(at) % l;
    var p := ids(at + 1) % l;
    Swap(q, if q == p then (p + 1) % l else p)
  }

  /** The control of the `for j := 0; j < l*(int(dns.Id())%4+1); j++` loop
      from iteration `j` on, with `pos` the next draw: the bound is drawn
      afresh at every test, then each iteration draws `q` and `p`. The
      positions picked never depend on the records, so the loop is this
      list of swaps applied in order. */
  function LoopSwaps(l: nat, ids: IdStream, pos: nat, j: nat): (sw: seq<Swap>)
    requires l == 0 || l >= 3
    requires j <= 4 * l
    ensures ProperSwaps(sw, l)
    decreases 4 * l - j
  {
    if j >= Bound(l, ids(pos)) then []
    else [PickSwap(ids, pos + 1, l)] + LoopSwaps(l, ids, pos + 3, j + 1)
  }

  /** How many iterations the loop runs from iteration `j`: it goes on while
      the fresh bound draw exceeds the iteration count, so it runs at least
      up to `l` and never past `4l`, and it stops at a bound draw that the
      iteration count has reached. */
  lemma {:induction false} LoopSwapsCount(l: nat, ids: IdStream, pos: nat, j: nat)
    requires l == 0 || l >= 3
    requires j <= 4 * l
    ensures l <= j + |LoopSwaps(l, ids, pos, j)| <= 4 * l
    ensures var n := |LoopSwaps(l, ids, pos, j)|;
      j + n >= Bound(l, ids(pos + 3 * n))
    decreases 4 * l - j
  {
    if j < Bound(l, ids(pos)) {
      LoopSwapsCount(l, ids, pos + 3, j + 1);
      var n := |LoopSwaps(l, ids, pos + 3, j + 1)|;
      assert |LoopSwaps(l, ids, pos, j)| == n + 1;
      assert pos + 3 * (n + 1) == (pos + 3) + 3 * n;
    }
  }

  /** Iteration `k` of the loop (counted from `j`) swapped the positions
      picked from draws `pos + 3k + 1` and `pos + 3k + 2`. */
  lemma {:induction false} LoopSwapsPicks(l: nat, ids: IdStream, pos: nat, j: nat, k: nat)
    requires l == 0 || l >= 3
    requires j <= 4 * l
    requires k < |LoopSwaps(l, ids, pos, j)|
    ensures l >= 3
    ensures LoopSwaps(l, ids, pos, j)[k] == PickSwap(ids, pos + 3 * k + 1, l)
    decreases k
  {
    var rest := LoopSwaps(l, ids, pos + 3, j + 1);
    assert LoopSwaps(l, ids, pos, j) == [PickSwap(ids, pos + 1, l)] + rest;
    if k > 0 {
      var k' := k - 1;
      LoopSwapsPicks(l, ids, pos + 3, j + 1, k');
      assert LoopSwaps(l, ids, pos, j)[k] == rest[k'];
      assert (pos + 3) + 3 * k' + 1 == pos + 3 * k + 1;
    }
  }

  /** Iteration `k` of the loop (counted from `j`) went ahead because the
      bound from draw `pos + 3k` exceeded the iteration count. */
  lemma {:induction false} LoopSwapsTests(l: nat, ids: IdStream, pos: nat, j: nat, k: nat)
    requires l == 0 || l >= 3
    requires j <= 4 * l
    requires k < |LoopSwaps(l, ids, pos, j)|
    ensures j + k < Bound(l, ids(pos + 3 * k))
    decreases k
  {
    var rest := LoopSwaps(l, ids, pos + 3, j + 1);
    assert LoopSwaps(l, ids, pos, j) == [PickSwap(ids, pos + 1, l)] + rest;
    if k > 0 {
      var k' := k - 1;
      LoopSwapsTests(l, ids, pos + 3, j + 1, k');
      assert (pos + 3) + 3 * k' == pos + 3 * k;
    }
  }

  /** The round-robin step as a whole: one record is left alone without a
      draw, two records are swapped when one draw is even, and any other
      count (zero included) runs the swap loop. */
  function Shuffle(rs: seq<RR>, ids: IdStream, pos: nat): (r: Shuffled)
    ensures |r.records| == |rs|
    ensures ProperSwaps(r.swaps, |rs|)
  {
    var l := |rs|;
    if l == 1 then Shuffled(rs, [])
    else if l == 2 then
      if ids(pos) % 2 == 0 then Shuffled(SwapAt(rs, 0, 1), [Swap(0, 1)])
      else Shuffled(rs, [])
    else
      var sw := LoopSwaps(l, ids, pos, 0);
      Shuffled(ApplySwaps(rs, sw), sw)
  }

  /** Round-robin only reorders: the answer is the input with the recorded
      swaps applied, hence a permutation of it of the same length. */
  lemma ShufflePermutes(rs: seq<RR>, ids: IdStream, pos: nat)
    ensures Shuffle(rs, ids, pos).records == ApplySwaps(rs, Shuffle(rs, ids, pos).swaps)
    ensures multiset(Shuffle(rs, ids, pos).records) == multiset(rs)
  {
    var r := Shuffle(rs, ids, pos);
    if |rs| == 2 && ids(pos) % 2 == 0 {
      assert r.swaps[1..] == [];
    }
    ApplySwapsPermutes(rs, r.swaps);
  }

  /** Zero and one records keep their order. */
  lemma ShuffleShort(rs: seq<RR>, ids: IdStream, pos: nat)
    requires |rs| <= 1
    ensures Shuffle(rs, ids, pos).records == rs
    ensures Shuffle(rs, ids, pos).swaps == []
  {
  }

  /** Two records: the single draw decides, swapped when it is even and
      kept when it is odd. */
  lemma ShufflePair(rs: seq<RR>, ids: IdStream, pos: nat)
    requires |rs| == 2
    ensures ids(pos) % 2 == 0 ==> Shuffle(rs, ids, pos).records == [rs[1], rs[0]]
    ensures ids(pos) % 2 != 0 ==> Shuffle(rs, ids, pos).records == rs
  {
  }

  /** Three or more records: between `l` and `4l` swaps, each of two
      distinct positions; iteration `k` tests the bound drawn at `pos + 3k`
      and swaps the positions drawn at `pos + 3k + 1` and `pos + 3k + 2`, and
      the loop ends at the first bound draw the iteration count has reached. */
  lemma ShuffleLong(rs: seq<RR>, ids: IdStream, pos: nat)
    requires |rs| >= 3
    ensures var r := Shuffle(rs, ids, pos);
      && |rs| <= |r.swaps| <= 4 * |rs|
      && ProperSwaps(r.swaps, |rs|)
      && |r.swaps| >= Bound(|rs|, ids(pos + 3 * |r.swaps|))
      && (forall k :: 0 <= k < |r.swaps| ==>
            r.swaps[k] == PickSwap(ids, pos + 3 * k + 1, |rs|)
            && k < Bound(|rs|, ids(pos + 3 * k)))
  {
    var sw := LoopSwaps(|rs|, ids, pos, 0);
    assert Shuffle(rs, ids, pos).swaps == sw;
    LoopSwapsCount(|rs|, ids, pos, 0);
    forall k | 0 <= k < |sw|
      ensures sw[k] == PickSwap(ids, pos + 3 * k + 1, |rs|)
    {
      LoopSwapsPicks(|rs|, ids, pos, 0, k);
    }
    forall k | 0 <= k < |sw|
      ensures k < Bound(|rs|, ids(pos + 3 * k))
    {
      LoopSwapsTests(|rs|, ids, pos, 0, k);
    }
  }

  /** When every bound draw agrees modulo 4 with `d`, the swap count is
      exactly `l * (d mod 4 + 1)`: the single-ID formula is the special case
      of draws that agree. */
  lemma ShuffleConstantBound(rs: seq<RR>, ids: IdStream, pos: nat, d: uint16)
    requires |rs| >= 3
    requires forall k: nat :: ids(k) % 4 == d % 4
    ensures |Shuffle(rs, ids, pos).swaps| == |rs| * (d % 4 + 1)
  {
    var r := Shuffle(rs, ids, pos);
    var n := |r.swaps|;
    ShuffleLong(rs, ids, pos);
    BoundIsProduct(|rs|, d);
    assert Bound(|rs|, ids(pos + 3 * n)) == Bound(|rs|, d);
    var k := n - 1;
    assert r.swaps[k] == PickSwap(ids, pos + 3 * k + 1, |rs|);
    assert k < Bound(|rs|, ids(pos + 3 * k));
    assert Bound(|rs|, ids(pos + 3 * k)) == Bound(|rs|, d);
  }
}

=== FILE: server.dfy ===
/** The request path of the server (server.go): the configuration built by
    `NewServer`, the address lookup `AddressRecords`, the existence check
    `SRVRecords`, and the handler `ServeDNS` that routes a query either to
    the upstream forwarder or to the zone's own answer. */
module Server {
  import opened Basics
  import opened Names
  import opened Message
  import opened Store
  import opened AddressWalk
  import opened RoundRobin
  import opened Cluster
  import opened Forward
  import opened Soa

  const DefaultTtl: uint32 := 3600
  const DefaultMinTtl: uint32 := 60

  /** The fields of the server the request path reads. `pubKey` is the
      zone's DNSKEY record when DNSSEC is configured. */
  datatype Config = Config(
    domain: string,
    domainLabels: nat,
    nameservers: seq<string>,
    pubKey: Option<RR>,
    roundRobin: bool,
    ttl: uint32,
    minTtl: uint32)

  /** Everything outside the server a request can observe: the store, the
      library parsers, the `dns.Id()` draws, the outcomes of the upstream
      exchanges, and the clock (Unix seconds). */
  datatype Env = Env(
    store: Store,
    net: NetParsers,
    ids: IdStream,
    exchange: ExchangeStream,
    now: int)

  /** `NewServer`: the zone is lower-cased and fully qualified, the label
      count is taken from the zone as given, the TTLs get their defaults,
      and round-robin and DNSSEC start switched off. */
  function NewServer(domain: string, nameservers: seq<string>): (s: Config)
    ensures IsLower(s.domain) && IsFqdn(s.domain)
    ensures |s.domain| == |domain| + (if IsFqdn(domain) then 0 else 1)
    ensures forall i :: 0 <= i < |domain| ==> s.domain[i] == LowerChar(domain[i])
    ensures s.domainLabels == |SplitDomainName(s.domain)|
    ensures s.ttl == 3600 && s.minTtl == 60
    ensures !s.roundRobin && s.pubKey.None? && s.nameservers == nameservers
  {
    LowerFqdn(domain);
    LowerFqdn(Fqdn(domain));
    Config(Fqdn(Lower(domain)), |SplitDomainName(Fqdn(domain))|, nameservers,
           None, false, DefaultTtl, DefaultMinTtl)
  }

  /** Normalising the zone is idempotent: a server built from an already
      normalised zone is the same server, label count included. */
  lemma NewServerIdempotent(domain: string, nameservers: seq<string>)
    ensures var s := NewServer(domain, nameservers);
      NewServer(s.domain, nameservers) == s
  {
    var d := Fqdn(Lower(domain));
    LowerFqdn(domain);
    LowerIdempotent(Fqdn(domain));
    LowerFqdn(Fqdn(domain));
    assert d == Lower(Fqdn(domain));
    assert Fqdn(Lower(d)) == d;
    assert Fqdn(d) == d;
  }

  /** The zone's SOA record at the request's time. */
  function ZoneSOA(cfg: Config, env: Env): (rr: RR)
    ensures rr.hdr.name == cfg.domain && rr.hdr.rrtype == TypeSOA
  {
    SOA(cfg.domain, cfg.ttl, cfg.minTtl, env.now)
  }

  /** The result of `AddressRecords`: the records, the store's error (no
      node at the path), or the panic of the cluster shortcut. */
  datatype Lookup = Found(records: seq<RR>) | NotFound | Crash

  /** Whether a lower-cased name is the zone apex or its `master.` name,
      both answered from the cluster member list. */
  predicate IsClusterName(cfg: Config, name: string) {
    name == "master." + cfg.domain || name == cfg.domain
  }

  /** `AddressRecords`: the cluster shortcut for the apex and `master.`
      names (never reordered); otherwise one store lookup at the name's
      path, whose records are reordered from the first draw on when
      round-robin is on. */
  function AddressRecords(cfg: Config, env: Env, q: Question): (r: Lookup)
    ensures r.Crash? ==> IsClusterName(cfg, Lower(q.name))
    ensures r.NotFound? <==>
      !IsClusterName(cfg, Lower(q.name)) && env.store.get(QuestionToPath(Lower(q.name))).None?
  {
    var name := Lower(q.name);
    if IsClusterName(cfg, name) then
      match ClusterRecords(env.store.cluster, q, cfg.ttl, env.net)
      case None => Crash
      case Some(rs) => Found(rs)
    else
      match env.store.get(QuestionToPath(name))
      case None => NotFound
      case Some(node) =>
        var rs := NodeRecords(node, q.name, q.qtype, env.net.parseIP);
        if cfg.roundRobin then Found(Shuffle(rs, env.ids, 0).records) else Found(rs)
  }

  /** What the address lookup finds: for the apex and `master.` names
      exactly the cluster shortcut's records (and its panic), never
      reordered; for any other name with a node in the store, that node's
      records, reordered only when round-robin is on. */
  lemma AddressRecordsFound(cfg: Config, env: Env, q: Question)
    ensures var r := AddressRecords(cfg, env, q);
      IsClusterName(cfg, Lower(q.name)) ==>
        && (r.Crash? <==> ClusterRecords(env.store.cluster, q, cfg.ttl, env.net).None?)
        && (r.Found? ==> Some(r.records) == ClusterRecords(env.store.cluster, q, cfg.ttl, env.net))
    ensures var r := AddressRecords(cfg, env, q);
      var node := env.store.get(QuestionToPath(Lower(q.name)));
      !IsClusterName(cfg, Lower(q.name)) && node.Some? ==>
        var rs := NodeRecords(node.value, q.name, q.qtype, env.net.parseIP);
        && r.Found? && multiset(r.records) == multiset(rs)
        && (!cfg.roundRobin ==> r.records == rs)
  {
    var node := env.store.get(QuestionToPath(Lower(q.name)));
    if !IsClusterName(cfg, Lower(q.name)) && node.Some? {
      ShufflePermutes(NodeRecords(node.value, q.name, q.qtype, env.net.parseIP), env.ids, 0);
    }
  }

  /** `SRVRecords` as it stands: the service lookup is never built, so the
      records and extras are always empty and the only outcome is whether
      the store has a node at the name's path. */
  datatype SrvAnswer = SrvAnswer(records: seq<RR>, extra: seq<RR>, failed: bool)

  function SRVRecords(env: Env, q: Question): (r: SrvAnswer)
    ensures r.records == [] && r.extra == []
  {
    SrvAnswer([], [], env.store.get(QuestionToPath(Lower(q.name))).None?)
  }

  /** What `ServeDNS` does with a request: write a reply of its own, hand
      the request to the forwarder, or panic (after writing the reply from
      its deferred function, when that was already installed). */
  datatype Outcome =
    | Written(msg: Msg)
    | Relayed(fwd: Forwarded)
    | Panicked(written: Option<Msg>)

  /** The body of `ServeDNS` after the reply skeleton is set up: the
      finished reply, and whether the body panicked before finishing it. */
  datatype Body = Body(msg: Msg, panicked: bool)

  /** A name error: rcode NXDOMAIN and the SOA in the authority section. */
  function NameError(m: Msg, req: Msg, soa: RR): (r: Msg)
    ensures r.rcode == RcodeNameError && r.ns == [soa]
    ensures r.answer == m.answer && r.extra == m.extra
  {
    SetRcode(m, req, RcodeNameError).(ns := [soa])
  }

  /** The part of `ServeDNS` (server.go:151-186) that fills the reply `m`
      for question `q` with lower-cased name `name`. */
  function Answer(cfg: Config, env: Env, req: Msg, q: Question, name: string, m: Msg): (b: Body)
    ensures b.panicked ==> b.msg == m
    ensures b.panicked ==> (q.qtype == TypeA || q.qtype == TypeAAAA) && IsClusterName(cfg, Lower(q.name))
    ensures b.msg.signedFor == m.signedFor && b.msg.edns == m.edns
    ensures b.msg.authoritative == m.authoritative && b.msg.recursionAvailable == m.recursionAvailable
    ensures b.msg.rcode == m.rcode || b.msg.rcode == RcodeNameError
  {
    var soa := ZoneSOA(cfg, env);
    if name == cfg.domain && q.qtype == TypeDNSKEY && cfg.pubKey.Some? then
      Body(m.(answer := m.answer + [cfg.pubKey.value]), false)
    else if name == cfg.domain && q.qtype == TypeSOA then
      Body(m.(answer := [soa]), false)
    else
      var addr := if q.qtype == TypeA || q.qtype == TypeAAAA
                  then AddressRecords(cfg, env, q) else Found([]);
      Fill(req, q, m, soa, addr, SRVRecords(env, q))
  }

  /** The rest of the body once the apex answers are ruled out: add the
      address records (or fail), then apply the service lookup's existence
      check and put the SOA in the authority section of an empty answer. */
  function Fill(req: Msg, q: Question, m: Msg, soa: RR, addr: Lookup, srv: SrvAnswer): (b: Body)
    ensures b.panicked <==> addr.Crash?
    ensures b.panicked ==> b.msg == m
    ensures b.msg.signedFor == m.signedFor && b.msg.edns == m.edns
    ensures b.msg.authoritative == m.authoritative && b.msg.recursionAvailable == m.recursionAvailable
    ensures b.msg.rcode == m.rcode || b.msg.rcode == RcodeNameError
  {
    match addr
    case Crash => Body(m, true)
    case NotFound => Body(NameError(m, req, soa), false)
    case Found(rs) =>
      var m1 := m.(answer := m.answer + rs);
      if srv.failed && |m1.answer| == 0 then Body(NameError(m1, req, soa), false)
      else
        var m2 := if q.qtype == TypeANY || q.qtype == TypeSRV
                  then m1.(answer := m1.answer + srv.records, extra := m1.extra + srv.extra)
                  else m1;
        if |m2.answer| == 0 then Body(m2.(ns := [soa]), false) else Body(m2, false)
  }

  /** Filling the skeleton keeps its header and leaves it unsigned; the
      rcode ends as NOERROR or NXDOMAIN, and a finished reply has answers
      and no authority, or no answers and exactly the SOA as authority. */
  lemma FillInvariants(req: Msg, q: Question, m: Msg, soa: RR, addr: Lookup, srv: SrvAnswer)
    requires m.id == req.id && m.response && m.authoritative && m.recursionAvailable
    requires |req.question| > 0 && m.question == [req.question[0]]
    requires m.rcode == RcodeSuccess && m.signedFor.None? && m.answer == [] && m.ns == []
    requires srv.records == [] && srv.extra == []
    ensures var r := Fill(req, q, m, soa, addr, srv).msg;
      && r.id == req.id && r.response && r.question == [req.question[0]]
      && r.authoritative && r.recursionAvailable && r.signedFor.None?
      && (r.rcode == RcodeSuccess || r.rcode == RcodeNameError)
      && (r.rcode == RcodeNameError ==> r.answer == [])
    ensures var b := Fill(req, q, m, soa, addr, srv);
      !b.panicked ==>
        && (|b.msg.answer| == 0 <==> b.msg.ns == [soa])
        && (|b.msg.answer| > 0 ==> b.msg.ns == [])
  {
    if addr.Found? {
      assert m.answer + addr.records == addr.records;
    }
  }

  /** Filling the skeleton with found records answers exactly those
      records, NOERROR, unless nothing was found and the existence check
      failed. */
  lemma FillFound(req: Msg, q: Question, m: Msg, soa: RR, rs: seq<RR>, srv: SrvAnswer)
    requires m.rcode == RcodeSuccess && m.answer == [] && m.ns == []
    requires srv.records == [] && srv.extra == []
    requires |rs| > 0 || !srv.failed
    ensures var b := Fill(req, q, m, soa, Found(rs), srv);
      && !b.panicked && b.msg.answer == rs && b.msg.rcode == RcodeSuccess
      && (|rs| == 0 <==> b.msg.ns == [soa])
      && (|rs| > 0 ==> b.msg.ns == [])
  {
    assert m.answer + rs == rs;
  }

  /** Filling an empty NOERROR reply ends in NXDOMAIN exactly when the
      lookup found no node or the existence check failed with nothing
      answered. */
  lemma FillNameErrorIff(req: Msg, q: Question, m: Msg, soa: RR, addr: Lookup, srv: SrvAnswer)
    requires m.rcode == RcodeSuccess && m.answer == [] && srv.records == []
    ensures var b := Fill(req, q, m, soa, addr, srv);
      !b.panicked ==>
        (b.msg.rcode == RcodeNameError <==>
           b.msg.answer == [] && (addr.NotFound? || srv.failed))
  {
    if addr.Found? {
      assert m.answer + addr.records == addr.records;
    }
  }

  /** Whether the deferred function signs the reply: a key is configured
      and the request carries EDNS0 with the DNSSEC-OK bit. */
  predicate WantsSignature(cfg: Config, req: Msg) {
    cfg.pubKey.Some? && req.edns.Some? && req.edns.value.dnssecOk
  }

  /** The deferred function of `ServeDNS`: add denial-of-existence records
      and sign for the request's UDP size when asked to, then write. */
  function Finish(cfg: Config, req: Msg, m: Msg): (r: Msg)
    ensures r.signedFor.Some? <==> WantsSignature(cfg, req) || m.signedFor.Some?
    ensures WantsSignature(cfg, req) ==> r.signedFor == Some(req.edns.value.udpSize)
    ensures r == m.(signedFor := r.signedFor)
  {
    if WantsSignature(cfg, req) then m.(signedFor := Some(req.edns.value.udpSize)) else m
  }

  /** The reply skeleton: a reply to `req`, authoritative, offering
      recursion, with an empty answer section. */
  function Skeleton(req: Msg): (m: Msg)
    ensures m.authoritative && m.recursionAvailable && m.response && m.id == req.id
    ensures |req.question| > 0 ==> m.question == [req.question[0]]
    ensures m.rcode == RcodeSuccess && m.signedFor.None?
    ensures m.answer == [] && m.ns == [] && m.extra == []
  {
    SetReply(EmptyMsg, req).(authoritative := true, recursionAvailable := true, answer := [])
  }

  /** `ServeDNS`. A request without a question panics on `Question[0]`
      before anything is written. A name that does not end in the zone, as
      a plain string suffix after lower-casing, is forwarded; every other
      name is answered from the zone and the reply is written by the
      deferred function even when the body panics. */
  function ServeDNS(cfg: Config, env: Env, req: Msg): (o: Outcome)
    ensures |req.question| == 0 <==> o == Panicked(None)
    ensures o.Relayed? <==> |req.question| > 0 && !HasSuffix(Lower(req.question[0].name), cfg.domain)
  {
    if |req.question| == 0 then Panicked(None)
    else
      var q := req.question[0];
      var name := Lower(q.name);
      if !HasSuffix(name, cfg.domain) then
        Relayed(ServeDNSForward(req, cfg.nameservers, env.exchange))
      else
        var b := Answer(cfg, env, req, q, name, Skeleton(req));
        var m := Finish(cfg, req, b.msg);
        if b.panicked then Panicked(Some(m)) else Written(m)
  }

  // ----- Properties of the handler -----

  /** Filling a fresh reply skeleton keeps its header, leaves it unsigned,
      and ends in NOERROR or NXDOMAIN; a finished reply has answers and no
      authority records, or no answers and exactly the SOA as authority. */
  lemma AnswerInvariants(cfg: Config, env: Env, req: Msg, q: Question, name: string, m: Msg)
    requires m.id == req.id && m.response && m.authoritative && m.recursionAvailable
    requires |req.question| > 0 && m.question == [req.question[0]]
    requires m.rcode == RcodeSuccess && m.signedFor.None? && m.answer == [] && m.ns == []
    ensures var r := Answer(cfg, env, req, q, name, m).msg;
      && r.id == req.id && r.response && r.question == [req.question[0]]
      && r.authoritative && r.recursionAvailable && r.signedFor.None?
      && (r.rcode == RcodeSuccess || r.rcode == RcodeNameError)
      && (r.rcode == RcodeNameError ==> r.answer == [])
    ensures var b := Answer(cfg, env, req, q, name, m);
      !b.panicked ==>
        && (|b.msg.answer| == 0 <==> b.msg.ns == [ZoneSOA(cfg, env)])
        && (|b.msg.answer| > 0 ==> b.msg.ns == [])
  {
    var soa := ZoneSOA(cfg, env);
    if name == cfg.domain && q.qtype == TypeDNSKEY && cfg.pubKey.Some? {
      assert m.answer + [cfg.pubKey.value] == [cfg.pubKey.value];
    } else if name == cfg.domain && q.qtype == TypeSOA {
    } else {
      var addr := if q.qtype == TypeA || q.qtype == TypeAAAA
                  then AddressRecords(cfg, env, q) else Found([]);
      FillInvariants(req, q, m, soa, addr, SRVRecords(env, q));
    }
  }

  /** Filling a fresh reply skeleton ends in NXDOMAIN exactly when nothing
      was answered and the store has no node at the name's path. */
  lemma AnswerNameErrorIff(cfg: Config, env: Env, req: Msg, q: Question, name: string, m: Msg)
    requires m.rcode == RcodeSuccess && m.answer == []
    ensures var b := Answer(cfg, env, req, q, name, m);
      !b.panicked ==>
        (b.msg.rcode == RcodeNameError <==>
           b.msg.answer == [] && env.store.get(QuestionToPath(Lower(q.name))).None?)
  {
    if !(name == cfg.domain && q.qtype == TypeDNSKEY && cfg.pubKey.Some?)
       && !(name == cfg.domain && q.qtype == TypeSOA) {
      var addr := if q.qtype == TypeA || q.qtype == TypeAAAA
                  then AddressRecords(cfg, env, q) else Found([]);
      FillNameErrorIff(req, q, m, ZoneSOA(cfg, env), addr, SRVRecords(env, q));
    }
  }

  /** A request for a name in the zone: it has a question and its
      lower-cased name ends in the zone. */
  predicate InZone(cfg: Config, req: Msg) {
    |req.question| > 0 && HasSuffix(Lower(req.question[0].name), cfg.domain)
  }

  /** The reply `ServeDNS` writes itself, if any (none when it forwards or
      panics before the deferred function is in place). */
  function WrittenReply(o: Outcome): Option<Msg> {
    match o
    case Written(m) => Some(m)
    case Panicked(w) => w
    case Relayed(_) => None
  }

  /** A forwarded request's fate depends only on the upstream exchanges:
      not on the store, the parsers, the id draws or the clock. */
  lemma ForwardIgnoresZone(cfg: Config, env1: Env, env2: Env, req: Msg)
    requires |req.question| > 0 && !InZone(cfg, req)
    requires env1.exchange == env2.exchange
    ensures ServeDNS(cfg, env1, req) == ServeDNS(cfg, env2, req)
    ensures ServeDNS(cfg, env1, req) == Relayed(ServeDNSForward(req, cfg.nameservers, env1.exchange))
  {
  }

  /** Every reply the handler writes for a name in the zone answers the
      request (same id, its question), is authoritative and offers
      recursion; its rcode is NOERROR or NXDOMAIN, and an NXDOMAIN reply
      has no answer. */
  lemma ReplyHeader(cfg: Config, env: Env, req: Msg)
    requires InZone(cfg, req)
    ensures WrittenReply(ServeDNS(cfg, env, req)).Some?
    ensures var m := WrittenReply(ServeDNS(cfg, env, req)).value;
      && m.id == req.id && m.response && m.question == [req.question[0]]
      && m.authoritative && m.recursionAvailable
      && (m.rcode == RcodeSuccess || m.rcode == RcodeNameError)
      && (m.rcode == RcodeNameError ==> m.answer == [])
  {
    var q := req.question[0];
    AnswerInvariants(cfg, env, req, q, Lower(q.name), Skeleton(req));
  }

  /** A reply written without a panic either has answers and an empty
      authority section, or no answers and exactly the zone's SOA in the
      authority section (NXDOMAIN or NODATA). */
  lemma AnswerOrSOA(cfg: Config, env: Env, req: Msg)
    requires InZone(cfg, req) && ServeDNS(cfg, env, req).Written?
    ensures var m := ServeDNS(cfg, env, req).msg;
      && (|m.answer| == 0 <==> m.ns == [ZoneSOA(cfg, env)])
      && (|m.answer| > 0 ==> m.ns == [])
  {
    var q := req.question[0];
    AnswerInvariants(cfg, env, req, q, Lower(q.name), Skeleton(req));
  }

  /** The reply is signed, for the request's UDP size, exactly when a key
      is configured and the request sets the DNSSEC-OK bit, panic or not. */
  lemma SignedIff(cfg: Config, env: Env, req: Msg)
    requires InZone(cfg, req)
    ensures var m := WrittenReply(ServeDNS(cfg, env, req)).value;
      && (m.signedFor.Some? <==> WantsSignature(cfg, req))
      && (WantsSignature(cfg, req) ==> m.signedFor == Some(req.edns.value.udpSize))
  {
    var q := req.question[0];
    AnswerInvariants(cfg, env, req, q, Lower(q.name), Skeleton(req));
  }

  /** At the apex an SOA query is answered with the zone's SOA alone. */
  lemma ApexSOA(cfg: Config, env: Env, req: Msg)
    requires |req.question| > 0
    requires Lower(req.question[0].name) == cfg.domain
    requires req.question[0].qtype == TypeSOA
    ensures ServeDNS(cfg, env, req).Written?
    ensures var m := ServeDNS(cfg, env, req).msg;
      m.answer == [ZoneSOA(cfg, env)] && m.ns == [] && m.rcode == RcodeSuccess
  {
    assert HasSuffix(Lower(req.question[0].name), cfg.domain);
  }

  /** At the apex a DNSKEY query is answered with the zone's key when one is
      configured; without a key it gets no answer and the SOA as authority
      (NXDOMAIN when the store has no node for the apex, NODATA otherwise). */
  lemma ApexDNSKEY(cfg: Config, env: Env, req: Msg)
    requires |req.question| > 0
    requires Lower(req.question[0].name) == cfg.domain
    requires req.question[0].qtype == TypeDNSKEY
    ensures ServeDNS(cfg, env, req).Written?
    ensures var m := ServeDNS(cfg, env, req).msg;
      && (cfg.pubKey.Some? ==> m.answer == [cfg.pubKey.value] && m.ns == [] && m.rcode == RcodeSuccess)
      && (cfg.pubKey.None? ==> m.answer == [] && m.ns == [ZoneSOA(cfg, env)])
      && (cfg.pubKey.None? ==>
            (m.rcode == RcodeNameError <==> env.store.get(QuestionToPath(cfg.domain)).None?))
  {
    assert HasSuffix(Lower(req.question[0].name), cfg.domain);
  }

  /** An A or AAAA query for a name below the zone with no node in the
      store is a name error: NXDOMAIN, no answer, the SOA as authority. */
  lemma AddressNameError(cfg: Config, env: Env, req: Msg)
    requires InZone(cfg, req)
    requires var q := req.question[0];
      && (q.qtype == TypeA || q.qtype == TypeAAAA)
      && !IsClusterName(cfg, Lower(q.name))
      && env.store.get(QuestionToPath(Lower(q.name))).None?
    ensures ServeDNS(cfg, env, req).Written?
    ensures var m := ServeDNS(cfg, env, req).msg;
      m.rcode == RcodeNameError && m.answer == [] && m.ns == [ZoneSOA(cfg, env)]
  {
  }

  /** An A or AAAA query for a name below the zone whose node exists is
      answered with the records of the node's matching leaves, as a
      permutation of them under round-robin and in store order without; no
      matching leaf gives NODATA, not a name error. */
  lemma AddressAnswer(cfg: Config, env: Env, req: Msg, node: Node)
    requires InZone(cfg, req)
    requires var q := req.question[0];
      && (q.qtype == TypeA || q.qtype == TypeAAAA)
      && !IsClusterName(cfg, Lower(q.name))
      && env.store.get(QuestionToPath(Lower(q.name))) == Some(node)
    ensures ServeDNS(cfg, env, req).Written?
    ensures var m := ServeDNS(cfg, env, req).msg;
      var q := req.question[0];
      var rs := NodeRecords(node, q.name, q.qtype, env.net.parseIP);
      && m.rcode == RcodeSuccess
      && (!cfg.roundRobin ==> m.answer == rs)
      && multiset(m.answer) == multiset(rs)
      && (|rs| == 0 <==> m.ns == [ZoneSOA(cfg, env)])
  {
    var q := req.question[0];
    var rs := NodeRecords(node, q.name, q.qtype, env.net.parseIP);
    var found := if cfg.roundRobin then Shuffle(rs, env.ids, 0).records else rs;
    assert AddressRecords(cfg, env, q) == Found(found);
    ShufflePermutes(rs, env.ids, 0);
    assert |found| == |rs| && multiset(found) == multiset(rs);
    FillFound(req, q, Skeleton(req), ZoneSOA(cfg, env), found, SRVRecords(env, q));
  }

  /** An SRV query never gets an answer: the service lookup only checks
      that the name's node exists, giving NODATA when it does and NXDOMAIN
      when it does not (apex and `master.` names included). */
  lemma SrvNeverAnswers(cfg: Config, env: Env, req: Msg)
    requires InZone(cfg, req) && req.question[0].qtype == TypeSRV
    ensures ServeDNS(cfg, env, req).Written?
    ensures var m := ServeDNS(cfg, env, req).msg;
      && m.answer == [] && m.extra == [] && m.ns == [ZoneSOA(cfg, env)]
      && (m.rcode == RcodeNameError <==> env.store.get(QuestionToPath(Lower(req.question[0].name))).None?)
  {
  }

  /** Every other query type gets no answer: outside the apex SOA answer
      and the apex DNSKEY answer with a key configured, a query that is
      neither A nor AAAA is NODATA when the name's node exists and NXDOMAIN
      when it does not, always with the SOA as authority. */
  lemma OtherTypesNoAnswer(cfg: Config, env: Env, req: Msg)
    requires InZone(cfg, req)
    requires var q := req.question[0];
      && q.qtype != TypeA && q.qtype != TypeAAAA
      && !(Lower(q.name) == cfg.domain &&
           (q.qtype == TypeSOA || (q.qtype == TypeDNSKEY && cfg.pubKey.Some?)))
    ensures ServeDNS(cfg, env, req).Written?
    ensures var m := ServeDNS(cfg, env, req).msg;
      && m.answer == [] && m.extra == [] && m.ns == [ZoneSOA(cfg, env)]
      && (m.rcode == RcodeNameError <==> env.store.get(QuestionToPath(Lower(req.question[0].name))).None?)
  {
  }

  /** An A query for the apex whose cluster list holds a member host that is
      not an IP address panics; the deferred function still writes the
      skeleton reply, with no answer and no authority records. */
  lemma ClusterPanicWritesEmptyReply(cfg: Config, env: Env, req: Msg, k: nat)
    requires |req.question| > 0
    requires Lower(req.question[0].name) == cfg.domain
    requires req.question[0].qtype == TypeA
    requires k < |Hosts(env.store.cluster, env.net)|
    requires env.net.parseIP(Hosts(env.store.cluster, env.net)[k]) == IP(None, None)
    ensures ServeDNS(cfg, env, req).Panicked?
    ensures var w := ServeDNS(cfg, env, req).written;
      && w.Some? && w.value.answer == [] && w.value.ns == []
      && w.value.rcode == RcodeSuccess && w.value.authoritative
  {
    ClusterPanicsOnNonIP(env.store.cluster, k, req.question[0], cfg.ttl, env.net);
    assert HasSuffix(Lower(req.question[0].name), cfg.domain);
  }

  /** The zone test is a plain string suffix, not a label boundary: with the
      zone `skydns.local.`, the name `xskydns.local.` is answered from the
      zone rather than forwarded. */
  lemma SuffixNotLabelBoundary(cfg: Config, env: Env, req: Msg)
    requires cfg.domain == "skydns.local."
    requires |req.question| > 0 && req.question[0].name == "xskydns.local."
    ensures !ServeDNS(cfg, env, req).Relayed?
  {
    assert Lower("xskydns.local.") == "xskydns.local.";
    assert "xskydns.local."[1..] == "skydns.local.";
  }

  /** An A or AAAA query for the apex or `master.` name is answered from
      the cluster member list: when every parseable member host is an IP
      address, the answer is one record per such member, in member order,
      never reordered even with round-robin on. */
  lemma ClusterAnswer(cfg: Config, env: Env, req: Msg)
    requires |req.question| > 0
    requires var q := req.question[0];
      && (q.qtype == TypeA || q.qtype == TypeAAAA)
      && IsClusterName(cfg, Lower(q.name))
    requires AllAddresses(Hosts(env.store.cluster, env.net), req.question[0], cfg.ttl, env.net)
    ensures ServeDNS(cfg, env, req).Written?
    ensures var m := ServeDNS(cfg, env, req).msg;
      var rs := RecordsFor(Hosts(env.store.cluster, env.net), req.question[0], cfg.ttl, env.net);
      && m.answer == rs
      && (|rs| > 0 ==> m.rcode == RcodeSuccess && m.ns == [])
  {
    var q := req.question[0];
    var name := Lower(q.name);
    ClusterRecordsSpec(env.store.cluster, q, cfg.ttl, env.net);
    if name == "master." + cfg.domain {
      assert name[|name| - |cfg.domain|..] == cfg.domain;
    }
    assert HasSuffix(name, cfg.domain);
    var rs := RecordsFor(Hosts(env.store.cluster, env.net), q, cfg.ttl, env.net);
    assert AddressRecords(cfg, env, q) == Found(rs);
    var srv := SRVRecords(env, q);
    if |rs| > 0 || !srv.failed {
      FillFound(req, q, Skeleton(req), ZoneSOA(cfg, env), rs, srv);
    }
  }

  /** For every query type, a reply written for a name in the zone is
      NXDOMAIN exactly when it has no answer and the store has no node at
      the name's path: the SRV-path existence check decides between
      NXDOMAIN and NODATA. */
  lemma NameErrorIff(cfg: Config, env: Env, req: Msg)
    requires InZone(cfg, req) && ServeDNS(cfg, env, req).Written?
    ensures var m := ServeDNS(cfg, env, req).msg;
      m.rcode == RcodeNameError <==>
        m.answer == [] && env.store.get(QuestionToPath(Lower(req.question[0].name))).None?
  {
    var q := req.question[0];
    AnswerNameErrorIff(cfg, env, req, q, Lower(q.name), Skeleton(req));
  }
}

=== FILE: soa.dfy ===
/** The zone's start-of-authority record (`SOA`, server.go:441-451): fixed
    timers, names derived from the zone, and a serial that is the current
    time truncated to the hour, in Unix seconds, cut to 32 bits. */
module Soa {
  import opened Basics
  import opened Message

  const HourSeconds: int := 3600

  const SoaRefresh: uint32 := 28800
  const SoaRetry: uint32 := 7200
  const SoaExpire: uint32 := 604800

  /** `t.Truncate(time.Hour)` on a time `t` seconds after the Unix epoch.
      The epoch is a whole number of hours after Go's zero time, so this
      rounds down to a multiple of an hour (towards the past, also for
      times before the epoch). */
  function HourFloor(t: int): (h: int)
    ensures h % HourSeconds == 0
    ensures h <= t < h + HourSeconds
  {
    (t / HourSeconds) * HourSeconds
  }

  /** The serial written at Unix time `now`. */
  function Serial(now: int): (s: uint32)
    ensures (s - HourFloor(now)) % TwoTo32 == 0
  {
    U32(HourFloor(now))
  }

  /** The SOA record of zone `domain` at Unix time `now`, with the zone's
      default TTL as the record TTL and its minimum TTL as the negative
      caching TTL. */
  function SOA(domain: string, ttl: uint32, minTtl: uint32, now: int): (rr: RR)
    ensures rr.hdr == Header(domain, TypeSOA, ClassINET, ttl)
    ensures rr.data.SOAData?
    ensures rr.data.ns == "master." + domain && rr.data.mbox == "hostmaster." + domain
    ensures rr.data.minttl == minTtl
    ensures rr.data.refresh == 28800 && rr.data.retry == 7200 && rr.data.expire == 604800
  {
    RR(Header(domain, TypeSOA, ClassINET, ttl),
       SOAData("master." + domain, "hostmaster." + domain, Serial(now),
               SoaRefresh, SoaRetry, SoaExpire, minTtl))
  }

  /** Until the 32-bit range of Unix time runs out (early 2106) the serial
      is the start of the current hour: a multiple of 3600, at most `now`,
      and less than an hour before it. */
  lemma SerialIsHourStart(now: int)
    requires 0 <= now < TwoTo32
    ensures Serial(now) % HourSeconds == 0
    ensures Serial(now) <= now < Serial(now) + HourSeconds
  {
  }

  /** Within that range the serial never decreases as time goes on, and it
      changes exactly when the hour does. */
  lemma SerialMonotone(a: int, b: int)
    requires 0 <= a <= b < TwoTo32
    ensures Serial(a) <= Serial(b)
    ensures Serial(a) == Serial(b) <==> a / HourSeconds == b / HourSeconds
  {
    SerialIsHourStart(a);
    SerialIsHourStart(b);
  }

  /** Two times an hour or more apart have different serials, the later
      one larger. */
  lemma SerialAdvancesHourly(a: int, b: int)
    requires 0 <= a && a + HourSeconds <= b < TwoTo32
    ensures Serial(a) < Serial(b)
  {
    SerialIsHourStart(a);
    SerialIsHourStart(b);
  }

  /** Past 2^32 seconds the truncation to 32 bits wraps the serial around:
      the first hour after the wrap has a far smaller serial than the last
      hour before it. */
  lemma SerialWraps()
    ensures Serial(4294965600) == 4294965600
    ensures Serial(4294969200) == 1904
    ensures Serial(4294969200) < Serial(4294965600)
  {
    assert HourFloor(4294965600) == 4294965600;
    assert HourFloor(4294969200) == 4294969200;
  }

  /** Until 2^32 seconds the SOA record carries the serial of the hour. */
  lemma SOASerial(domain: string, ttl: uint32, minTtl: uint32, now: int)
    requires 0 <= now < TwoTo32
    ensures var d := SOA(domain, ttl, minTtl, now).data;
      d.serial % HourSeconds == 0 && d.serial <= now < d.serial + HourSeconds
  {
    SerialIsHourStart(now);
  }
}

=== FILE: store.dfy ===
/** The server's collaborators, seen only at their boundary: the key-value
    store (one recursive `Get` per path, plus the cluster member list) and
    the standard-library parsers for URLs, host:port pairs and IP
    addresses, whose internals are not part of this model. */
module Store {
  import opened Basics

  /** A node of the store tree as one recursive `Get` returns it: a leaf with
      a string value and a TTL in seconds (a signed 64-bit number in the
      store client), or a directory with its children in store order. */
  datatype Node =
    | Leaf(key: string, value: string, ttl: int)
    | Dir(key: string, children: seq<Node>)

  /** The store as the request path sees it: `get` is `client.Get(path,
      false, true)`, with `None` for any error (a missing key among them);
      `cluster` is `client.GetCluster()`. */
  datatype Store = Store(get: string -> Option<Node>, cluster: seq<string>)

  /** `net.ParseIP(h)` seen through `To4()` and `To16()`; both are `None`
      for a nil IP. */
  datatype IP = IP(to4: Option<seq<byte>>, to16: Option<seq<byte>>)

  /** The library parsers the cluster shortcut and the record builder call:
      `urlHost(m)` is the `Host` of `url.Parse(m)`, `splitHostPort(h)` the
      host part of `net.SplitHostPort(h)`, each `None` on a parse error. */
  datatype NetParsers = NetParsers(
    urlHost: string -> Option<string>,
    splitHostPort: string -> Option<string>,
    parseIP: string -> IP)
}
